=== FILE: README.md ===
# Private DAO: vote tallying engine and DAO contract, in Dafny

This project models the two halves of a private-voting DAO.

**The tallying engine** (`src/tally.rs`) runs inside a TEE. It receives every
encrypted ballot of a proposal and processes them in this order:

1. Hex-decodes and ECIES-decrypts each ballot with a key derived for its voter.
2. Drops undecodable, undecryptable and dummy ballots.
3. Keeps for each voter the real ("yes"/"no") ballot with the greatest timestamp.
4. Counts the kept ballots and checks an `Absolute` quorum.
5. Builds a SHA-256 Merkle tree over all ballots, with one inclusion proof per ballot.
6. Emits a placeholder attestation.

The yes/no/total counts are disclosed only when the quorum is met.
`compute_votes_hash`, a digest of the ballots, is modelled as well. It is independent of submission order when no two ballots share a (user, timestamp) key; when two different ballots share one, the stable sort keeps their input order and the digest shows it.

**The NEAR contract** (`dao-contract/src/lib.rs`) keeps members, derived public keys,
proposals and ballots. Its transitions are modelled as pure functions on a
`PrivateDao` value, and each call that panics returns `Failure` with the state
unchanged, which is how the runtime rolls the call back:

- construction, `join_dao`, `add_member`, `complete_join`;
- `create_proposal`, `cast_vote`, `finalize_proposal`;
- the `on_key_derived` and `on_votes_tallied` callbacks;
- the view methods.

A call that sends a cross-contract promise returns the request it sends instead.

The primitives are parameters: SHA-256 and ECIES decryption are carried as
arbitrary functions, so every property holds for every choice of them. Where a
property needs SHA-256 to behave like a hash, it is stated as "… or the hash has
a collision" (`Merkle.HasCollision`).

Modules, in dependency order:

- `Wrappers`: `Option`, `Result`.
- `Bytes`: `u32`/`u64`, wrap-around, little-endian and UTF-8 encodings.
- `Hex`: the `hex` crate.
- `Crypto`: primitives and the HKDF label.
- `Ballots`: the engine's `VoteData`.
- `Merkle`, `Aggregate`, `Quorum`, `Attestation`, `VotesHash`, `Tally`: the engine.
- `DaoTypes`, `DaoViews`, `Dao`, `DaoInvariant`: the contract.

## Model

| member | source | states |
|---|---|---|
| `Hex.DecodeEncode` | src/tally.rs:271 | `hex::decode` inverts `hex::encode`, so a leaf, node or digest text determines its bytes |
| `Hex.EncodeDecode` | src/tally.rs:130 | a ciphertext that decodes is the lower-case form of the re-encoded bytes: decoding forgets only letter case |
| `Crypto.KeyInfoInjective` | src/crypto.rs:31 | within one DAO, distinct users get distinct HKDF info labels, hence distinct key derivations |
| `Crypto.KeyInfoAmbiguousAcrossDaos` | src/crypto.rs:31 | the label does not separate DAO from user: `"a:b"`/`"c"` and `"a"`/`"b:c"` give the same label |
| `Ballots.PreimageDeterminesCiphertext` | src/tally.rs:267-270 | for one voter and timestamp, the hashed preimage determines the ciphertext |
| `Ballots.PreimageAmbiguous` | src/tally.rs:267-270 | the separator-less preimage does not determine the ballot: two different ballots share one |
| `Aggregate.Classify` | src/tally.rs:128-179 | a ballot is skipped exactly on bad hex, on failed decryption, or on a plaintext other than "yes"/"no"; it is `Real(Yes)`/`Real(No)` iff it decrypts under its voter's key to exactly "yes"/"no" |
| `Aggregate.Step` | src/tally.rs:159-179 | one loop iteration: only a real ballot touches the map, only its voter's entry, and only when it is the voter's first or carries a strictly greater timestamp |
| `Aggregate.FoldCountsLastRealVote` | src/tally.rs:125-180 | after the loop, a voter has an entry iff they cast a real ballot, and the entry is the choice and timestamp of the counted ballot: the real ballot of greatest timestamp, the earliest submitted among ties |
| `Aggregate.CountedUnique` | src/tally.rs:163-169 | at most one ballot per voter is counted |
| `Aggregate.CountsMatchReference` | src/tally.rs:182-197 | the counting loop yields the sizes of the sets of voters whose counted ballot is yes / no, and those sets partition the voters with a real ballot |
| `Aggregate.FoldPermutationInvariant` | src/tally.rs:125-197 | reordering the ballots leaves the per-voter result unchanged as long as a voter's equal-timestamp real ballots agree |
| `Aggregate.TiedVotesDependOnOrder` | src/tally.rs:167 | with two real ballots of one voter at one timestamp, the first processed wins, so the two orders give different results |
| `Merkle.BuildMerkleTreeWithProofs` | src/tally.rs:255-340 | no ballots give `("", [])`; otherwise the root of the level tower over the leaves, one proof per ballot with its voter, index, leaf hash and timestamp, and every proof path recomputes the root from its leaf |
| `Merkle.ProofPathRecomputesRoot` | src/tally.rs:312-334 | folding a leaf upward with the recorded siblings, left or right by index parity, reaches the root, including the duplicated last node of odd levels |
| `Merkle.RootBinding` | src/tally.rs:284-310 | among leaf levels of one size, the root determines every leaf unless SHA-256 has a collision |
| `Merkle.RootBindsBallots` | src/tally.rs:262-310 | among ballot lists of one length, the root determines every ballot's hashed preimage, or there is a collision |
| `Merkle.TamperChangesRoot` | src/tally.rs:255-340 | changing one ballot's ciphertext changes the root, or there is a collision |
| `Merkle.SwapChangesRoot` | src/tally.rs:255-340 | exchanging two ballots with different preimages changes the root: the tree commits to submission order |
| `Quorum.ParseQuorum` | src/tally.rs:367-374 | the policy parses iff it is a one-key object `"Absolute"` whose content is an object holding an integer `min_votes` in the u64 range (other keys in it are ignored); the threshold read back is that integer, and every other shape fails with "Invalid quorum format" |
| `Quorum.CheckQuorum` | src/tally.rs:361-383 | an unparseable policy is an error; otherwise the quorum is met iff the total reaches `min_votes` |
| `Quorum.ParseContractQuorum` | src/tally.rs:367-371 | of the three policies the contract stores, the engine accepts exactly `Absolute`, and reads its threshold back unchanged |
| `Attestation.GenerateTeeAttestation` | src/tally.rs:435-463 | the attestation is `"mvp-attestation:"` followed by 64 hex digits that decode to SHA-256 of the id, root and counts |
| `Attestation.CommitmentInjective` | src/tally.rs:446-449 | the hashed bytes determine id, root and both counts: the fixed-width integers frame the root |
| `Attestation.AttestationBinding` | src/tally.rs:435-463 | equal attestations have equal id, root, yes and no counts, unless SHA-256 has a collision |
| `VotesHash.SortByKey` | src/tally.rs:402-403 | the stable sort by `(user, timestamp)` returns a permutation of the ballots in non-decreasing key order, and the ballots sharing any one key keep their input order |
| `VotesHash.ComputeVotesHash` | src/tally.rs:398-416 | the votes hash is 64 hex digits that decode to exactly the SHA-256 digest of the stably sorted ballots' concatenated preimages |
| `VotesHash.SortedUnique` | src/tally.rs:402-403 | two key-sorted orderings of the same ballots with distinct keys are identical |
| `VotesHash.VotesHashPermutationInvariant` | src/tally.rs:398-416 | ballots with distinct `(user, timestamp)` keys give the same hash in any submission order |
| `VotesHash.DuplicateKeysDependOnOrder` | src/tally.rs:403-412 | two different ballots sharing a key and ciphertext length hash differently in the two orders unless there is a collision: the stable sort keeps their input order |
| `VotesHash.TwoVotersInEitherOrder` | src/tally.rs:490-507 | the unit test's two ballots hash equally in both orders |
| `Tally.CountersMatchReference` | src/tally.rs:183-197 | the u32 yes and no counters are the supporter-set sizes, and their wrapping sum is the number of distinct real voters, each modulo 2^32 |
| `Tally.TallyVotes` | src/tally.rs:115-229 | fails iff the quorum policy does not parse; otherwise the counts are disclosed iff the number of distinct real voters reaches `min_votes`, as the reference sizes, a hidden result has no counts and total 0, the root and proofs are those of the Merkle tree over all ballots, and the attestation binds the true counts |
| `Tally.TallyVotesGated` | src/tally.rs:211-224 | the corrected tally: identical to `TallyVotes` except that the attestation binds the disclosed counts, (0, 0) for a hidden result |
| `Tally.OnlyAbsoluteQuorumsTally` | src/tally.rs:367-374 | a proposal whose policy is `Percentage` or `PercentageOfVoters` can never be tallied |
| `Tally.NonVoteKeepsCounts` | src/tally.rs:174-179 | appending a non-vote ballot (bad hex, undecryptable, dummy) changes neither counter |
| `Tally.NonVoteKeepsTally` | src/tally.rs:174-179 | appending a non-vote ballot leaves the disclosed yes, no and total fields unchanged |
| `Tally.RevotingCountsVoterOnce` | src/tally.rs:104-114 | the documented example: two real ballots from alice and one from bob count two voters |
| `Tally.SingleBallotCounts` | src/tally.rs:183-195 | a single real ballot counts one for its choice and none for the other |
| `Tally.HiddenCountsRecoverable` | src/tally.rs:211-216 | as written, for a hidden result, any candidate count pair that reproduces the published attestation is the true pair, or there is a collision |
| `Tally.OneHiddenBallotLeaks` | src/tally.rs:211-224 | as written, one ballot decrypting to "yes" versus "no" under `Absolute{min_votes: 2}` hides the counts in both cases, yet the two results differ, while the gated results are equal |
| `Tally.GatedHidesDecryption` | src/tally.rs:218-224 | with the gated attestation, a hidden result is the same under any decryption: it depends only on the ballots as submitted |
| `DaoViews.GetDaoInfo` | dao-contract/src/lib.rs:648-655 | the info reports the stored name, owner, membership mode and member count |
| `DaoViews.IsMember` | dao-contract/src/lib.rs:658-660 | an account is reported a member iff it is in the member map; a missing entry reads as not a member |
| `DaoViews.GetUserPubkey` | dao-contract/src/lib.rs:663-665 | a key is returned iff one was stored for the account |
| `DaoViews.GetProposal` | dao-contract/src/lib.rs:668-670 | a proposal is returned iff it exists |
| `DaoViews.GetVotes` | dao-contract/src/lib.rs:682-687 | the stored ballots, or none for an unknown proposal |
| `DaoViews.GetVoteCount` | dao-contract/src/lib.rs:690-695 | the count is the length of the list `get_votes` returns |
| `DaoViews.GetProposalsAsWritten` | dao-contract/src/lib.rs:673-679 | as written, the page starts at `from_index` and holds `limit` proposals, both truncated to 32 bits, cut short at the end of the listing; the i-th element is the listing's element at the truncated start plus i |
| `DaoViews.GetProposals` | dao-contract/src/lib.rs:673-679 | the corrected page: `limit` proposals cut short at the end of the listing, so empty from an index past the end, and the i-th element is the listing's `from_index + i`-th |
| `DaoViews.PagesConcatenate` | dao-contract/src/lib.rs:673-679 | consecutive pages tile the listing |
| `DaoViews.StartIndexWraps` | dao-contract/src/lib.rs:676 | as written, `from_index = 2^32` serves the first proposal again, where the full-width view returns nothing |
| `DaoViews.LimitWraps` | dao-contract/src/lib.rs:677 | as written, `limit = 2^32` returns nothing, where the full-width view returns the whole listing |
| `Dao.New` | dao-contract/src/lib.rs:114-135 | initialization fails iff a deposit is attached (the method is not `#[payable]`, and the deposit is rejected first) or state exists; otherwise the owner is the only member, there are no keys, proposals or ballots, and ids start at 1 |
| `Dao.JoinDao` | dao-contract/src/lib.rs:154-184 | succeeds iff the caller is not a member, the DAO is public and the deposit covers storage plus execution; an existing member is refused first, then a private DAO; on success exactly the caller is added and a key derivation is requested |
| `Dao.AddMember` | dao-contract/src/lib.rs:189-204 | succeeds iff no deposit is attached (the method is not `#[payable]`, and a deposit is rejected before the owner check), the owner calls, the DAO is private and the account is not a member; on success exactly that account is added |
| `Dao.CompleteJoin` | dao-contract/src/lib.rs:210-235 | a key is requested iff the caller is a member without a key who attaches the execution deposit |
| `Dao.CreateProposal` | dao-contract/src/lib.rs:248-303 | succeeds iff a member attaches the storage deposit and the deadline is in the future; the new proposal takes the next id, is active, untallied and ballot-free, records the member count, and nothing else changes |
| `Dao.CastVote` | dao-contract/src/lib.rs:320-378 | succeeds iff a member holding a key attaches the vote deposit to an active proposal before its deadline; exactly one ballot stamped with the block time is appended, and the vote count rises by one |
| `Dao.FinalizeProposal` | dao-contract/src/lib.rs:395-430 | a tally request carrying all stored ballots is sent iff the execution deposit is attached to an active proposal whose deadline has passed |
| `Dao.OnKeyDerived` | dao-contract/src/lib.rs:526-559 | a delivered key is stored for exactly that user; a failed derivation panics, which rolls back the member removal before it |
| `Dao.QuorumMet` | dao-contract/src/lib.rs:582-598 | the contract's quorum test panics exactly on u64 overflow of a product, and otherwise agrees with the division-free reference `MeetsQuorum` |
| `Dao.FloorDivBound` | dao-contract/src/lib.rs:587-588 | `t >= x / 100` exactly when `x < 100 * (t + 1)` |
| `Dao.RatioBound` | dao-contract/src/lib.rs:594-595 | `x / t >= p` exactly when `x >= p * t` for positive `t` |
| `Dao.OnVotesTallied` | dao-contract/src/lib.rs:563-634 | a delivered tally settles its proposal: `Passed` iff the quorum is met and yes outnumbers no, `Rejected` otherwise; the tally is recorded and no other proposal changes; a failed execution, an unknown proposal or an overflow panics |
| `DaoInvariant.NewIsValid` | dao-contract/src/lib.rs:115-135 | a fresh contract satisfies the state invariant |
| `DaoInvariant.JoinDaoPreservesValid` | dao-contract/src/lib.rs:154-184 | joining keeps the invariant |
| `DaoInvariant.AddMemberPreservesValid` | dao-contract/src/lib.rs:189-204 | pre-approving keeps the invariant |
| `DaoInvariant.CreateProposalPreservesValid` | dao-contract/src/lib.rs:248-303 | creating a proposal keeps the invariant: ids stay dense from 1, every proposal has a ballot list, and an active proposal has no tally |
| `DaoInvariant.CastVotePreservesValid` | dao-contract/src/lib.rs:320-378 | voting keeps the invariant: every stored ballot comes from a member holding a key and is stamped before its proposal's deadline |
| `DaoInvariant.OnKeyDerivedPreservesValid` | dao-contract/src/lib.rs:526-559 | storing a key keeps the invariant |
| `DaoInvariant.OnVotesTalliedPreservesValid` | dao-contract/src/lib.rs:563-634 | settling a proposal keeps the invariant: it leaves `Active` exactly as it gains a tally |
| `DaoInvariant.VotingPrecedesFinalization` | dao-contract/src/lib.rs:358-420 | a successful vote happens strictly before any successful finalization of the same proposal, so the two windows never overlap |
| `DaoInvariant.SettledProposalIsClosed` | dao-contract/src/lib.rs:603-617 | once tallied, a proposal accepts no more ballots and no second finalization |
| `DaoInvariant.TallyRequestBallotsInTime` | dao-contract/src/lib.rs:395-430 | in a valid state, a tally request carries exactly the proposal's ballots, each from a member holding a key and stamped before the deadline, which has passed |
| `DaoInvariant.ToBallot` | src/main.rs:48-60 | the engine's view of a stored ballot keeps voter, ciphertext and timestamp, and drops the nonce |
| `DaoInvariant.EngineBallots` | src/main.rs:48-60 | the engine reads a tally request's ballot list element by element, in the stored order |
| `DaoInvariant.TalliedVotersAreMembers` | dao-contract/src/lib.rs:395-430 | in a valid state, under any decryption key, every voter the engine counts from a tally request is a member holding a key, so the number of counted voters is at most the member count |
| `DaoInvariant.InfoConsistent` | dao-contract/src/lib.rs:648-660 | in a valid state, the reported owner is a member and the reported member count is the number of members |
| `DaoInvariant.OnlyMembersAct` | dao-contract/src/lib.rs:154-335 | casting a ballot, opening a proposal and requesting a key succeed only for a member; joining succeeds only for a non-member, who is a member afterwards |
| `DaoInvariant.Apply` | dao-contract/src/lib.rs:114-634 | no call, successful or not, revokes a membership or changes the owner or the membership mode |
| `DaoInvariant.ApplyPreservesValid` | dao-contract/src/lib.rs:114-634 | any single call, successful or rolled back, keeps the invariant |
| `DaoInvariant.RunPreservesValid` | dao-contract/src/lib.rs:114-634 | any sequence of calls keeps the invariant, and a member stays a member throughout |
| `DaoInvariant.ReachableIsValid` | dao-contract/src/lib.rs:115-135 | every state reachable from a fresh contract satisfies the invariant and still has its owner as a member |

## Left out

- SHA-256, HKDF and ECIES are not modelled: they are arbitrary function parameters (`Crypto.Primitives`). Binding properties are stated modulo a hash collision.
- The process around the engine is not modelled. This covers stdin/stdout, JSON framing, the environment variable holding the master secret, and `derive_pubkey`. `src/main.rs` also calls `tally_votes` with six arguments against the five `src/tally.rs` declares.
- The contract's request for a tally sends neither the quorum nor the member count, and `src/main.rs` requires both. As the sources stand, every tally request therefore fails at the engine's entry. The model treats a tally as a request plus an independent callback.
- Logging (`eprintln!`, `log!`) and gas are not modelled. Neither is the `#[private]` check that only the contract itself calls its callbacks.
- `Quorum.ParseQuorum`: the error is the fixed prefix "Invalid quorum format". serde's explanation after it is not modelled. JSON numbers are integers only, so a floating-point `min_votes` (for example 2.0 or 2e0, which serde rejects for a `u64`) is not modelled.
- `Tally.TallyVotes`: `yes_count += 1` and `yes_count + no_count` are u32 operations. The model wraps them modulo 2^32, which is what a release build does; a debug build would panic instead. Neither is reachable with fewer than 2^32 voters.
- `member_count`, `next_proposal_id` and the vote-list lengths are unbounded naturals. 2^64 calls are unreachable.
- `Dao.QuorumMet`: the contract's u64 products are modelled as panicking on overflow (overflow checks on). A build without them would wrap.
- `Dao.OnVotesTallied` does not check that the proposal is still `Active`. Two finalizations sent before the first callback would both be settled, the second overwriting the first. The model records this behaviour and proves nothing about it.
- The contract reads the engine's counts as plain u64s (lib.rs:583-619), although `TallyResponse` is declared only in types.rs:133-144, with `Option<u64>` counts. The engine omits the counts when hidden, and this JSON mismatch at the boundary is not modelled.
- `dao-contract/src/types.rs` lacks what `lib.rs` uses from it through `use types::*` (lib.rs:13, 24). `QuorumType` declares only `Absolute` (types.rs:21-24), but lib.rs:582-598 matches three variants. `Proposal` has no `total_members_at_creation` (types.rs:40-52), but lib.rs:288 sets it. `Vote` has no `nonce` (types.rs:58-64), but lib.rs:365-370 builds one. The proposal `deadline` (types.rs:48) and the response counts (types.rs:136-138) are `Option<u64>`, but lib.rs uses them as `u64`. So the crate as given does not compile. The model follows the types that lib.rs's usage implies.
- `VotesHash.ComputeVotesHash` follows the code at src/tally.rs:405-415, which streams every sorted ballot's raw preimage into one SHA-256 hasher. The doc comment at src/tally.rs:391-392 instead describes a hash over per-vote hashes, and that variant is not modelled.
- `proposals.values()` iterates an `UnorderedMap` in insertion order. The model lists proposals by id, which is the same order because ids are inserted in increasing order and never removed.
- Storage staking, refunds and the NEAR token transfers attached to promises are not modelled beyond the deposit guards. These include the rejection of any deposit by the non-payable `new` and `add_member`. The callbacks are not `#[payable]` either; they are modelled without a deposit, as the contract's own promises send none.

## Findings

| source | as written | input that shows it | evidently intended | confidence | as-written member | corrected member |
|---|---|---|---|---|---|---|
| src/tally.rs:211-216 | the attestation hashes the true yes/no counts even when the quorum is not met and the counts are hidden | one ballot that decrypts to "yes" versus "no", policy `Absolute{min_votes: 2}`: both results hide the counts but carry different attestations, and the hidden pair can be recovered by trying candidate pairs against the published attestation | a hidden result should reveal nothing about the counts ("hide all vote counts to protect voter privacy", src/tally.rs:218-219), so the attestation should bind only what is disclosed, (0, 0) when hidden | medium, not executed | `Tally.OneHiddenBallotLeaks` | `Tally.TallyVotesGated` |
| dao-contract/src/lib.rs:676-677 | `from_index as usize` and `limit as usize` truncate to 32 bits on the wasm32 target | `get_proposals(2^32, 1)` returns the first proposal again; `get_proposals(0, 2^32)` returns nothing | the u64 parameters taken at full width: an index past the end gives an empty page, and a large limit gives everything | medium, not executed | `DaoViews.StartIndexWraps` | `DaoViews.GetProposals` |

=== FILE: aggregate.dfy ===
/** The per-voter fold of `tally_votes` (src/tally.rs:125-197): decrypt each ballot,
    drop undecodable, undecryptable and dummy ballots, keep for each voter the real
    vote with the strictly greatest timestamp (the first one processed on a tie),
    then count. */
module Aggregate {
  import opened Wrappers
  import opened Bytes
  import Hex
  import opened Crypto
  import opened Ballots

  datatype Choice = Yes | No

  /** What processing one ballot yields. */
  datatype Outcome =
    | BadHex                     // `hex::decode` failed: skipped
    | DecryptFailed              // decryption or UTF-8 check failed: skipped
    | Dummy(plaintext: string)   // decrypted to anything but "yes"/"no": skipped
    | Real(choice: Choice)

  /** Everything decryption depends on: the primitives, the master secret and the
      DAO account id. */
  datatype Keyring = Keyring(prims: Primitives, secret: seq<uint8>, dao: string)

  /** Classify one ballot (src/tally.rs:130-160). */
  function Classify(k: Keyring, b: Ballot): (o: Outcome)
    ensures o.BadHex? <==> Hex.Decode(b.ciphertext).None?
    ensures o.DecryptFailed? <==>
      Hex.Decode(b.ciphertext).Some?
      && DecryptVote(k.prims, k.secret, k.dao, b.voter, Hex.Decode(b.ciphertext).value).None?
    ensures o.Real? || o.Dummy? <==>
      Hex.Decode(b.ciphertext).Some?
      && DecryptVote(k.prims, k.secret, k.dao, b.voter, Hex.Decode(b.ciphertext).value).Some?
    ensures o == Real(Yes) <==>
      DecryptsTo(k, b, "yes")
    ensures o == Real(No) <==>
      DecryptsTo(k, b, "no")
    ensures o.Dummy? ==> o.plaintext != "yes" && o.plaintext != "no"
  {
    match Hex.Decode(b.ciphertext)
    case None => BadHex
    case Some(ct) =>
      match DecryptVote(k.prims, k.secret, k.dao, b.voter, ct)
      case None => DecryptFailed
      case Some(plaintext) =>
        if plaintext == "yes" then Real(Yes)
        else if plaintext == "no" then Real(No)
        else Dummy(plaintext)
  }

  /** The ballot decodes and decrypts, under its own voter's key, to exactly `text`. */
  predicate DecryptsTo(k: Keyring, b: Ballot, text: string)
  {
    && Hex.Decode(b.ciphertext).Some?
    && DecryptVote(k.prims, k.secret, k.dao, b.voter, Hex.Decode(b.ciphertext).value) == Some(text)
  }

  /** A voter's stored vote and its timestamp. */
  datatype Entry = Entry(choice: Choice, timestamp: u64)

  type VoteMap = map<string, Entry>

  /** One iteration of the ballot loop (src/tally.rs:159-179). */
  function Step(m: VoteMap, b: Ballot, o: Outcome): (m': VoteMap)
    ensures m'.Keys == if o.Real? then m.Keys + {b.voter} else m.Keys
    ensures forall v :: v in m && v != b.voter ==> m'[v] == m[v]
    ensures !o.Real? ==> m' == m
    ensures o.Real? && b.voter in m && b.timestamp <= m[b.voter].timestamp ==> m' == m
    ensures o.Real? && (b.voter !in m || b.timestamp > m[b.voter].timestamp) ==>
      m'[b.voter] == Entry(o.choice, b.timestamp)
  {
    if o.Real? then
      if b.voter in m then
        if b.timestamp > m[b.voter].timestamp then m[b.voter := Entry(o.choice, b.timestamp)] else m
      else m[b.voter := Entry(o.choice, b.timestamp)]
    else m
  }

  /** The loop over all ballots, in order, from the empty map. */
  function Fold(k: Keyring, ballots: seq<Ballot>): VoteMap
    decreases |ballots|
  {
    if |ballots| == 0 then map[]
    else
      var last := ballots[|ballots| - 1];
      Step(Fold(k, ballots[..|ballots| - 1]), last, Classify(k, last))
  }

  // ---------------------------------------------------------------------------
  // Reference: which ballot is counted for each voter, stated without the loop
  // ---------------------------------------------------------------------------

  /** Ballot `j` is a real vote of voter `v`. */
  ghost predicate IsRealOf(k: Keyring, ballots: seq<Ballot>, v: string, j: int)
  {
    0 <= j < |ballots| && ballots[j].voter == v && Classify(k, ballots[j]).Real?
  }

  /** Ballot `j` is the one counted for `v`: a real vote of `v` with the greatest
      timestamp among `v`'s real votes, and the first such in submission order. */
  ghost predicate IsCounted(k: Keyring, ballots: seq<Ballot>, v: string, j: int)
  {
    && IsRealOf(k, ballots, v, j)
    && (forall i :: IsRealOf(k, ballots, v, i) ==> ballots[i].timestamp <= ballots[j].timestamp)
    && (forall i :: IsRealOf(k, ballots, v, i) && i < j ==> ballots[i].timestamp < ballots[j].timestamp)
  }

  /** The voters with at least one real vote. */
  ghost function RealVoters(k: Keyring, ballots: seq<Ballot>): set<string>
  {
    set j | 0 <= j < |ballots| && Classify(k, ballots[j]).Real? :: ballots[j].voter
  }

  /** At most one ballot is counted per voter. */
  lemma CountedUnique(k: Keyring, ballots: seq<Ballot>, v: string, j: int, j2: int)
    requires IsCounted(k, ballots, v, j) && IsCounted(k, ballots, v, j2)
    ensures j == j2
  {
  }

  /** The fold and the reference agree, on the ballots processed so far. */
  ghost predicate FoldMatches(k: Keyring, ballots: seq<Ballot>, m: VoteMap)
  {
    && (forall v :: v in m <==> exists j :: IsRealOf(k, ballots, v, j))
    && (forall v :: v in m ==> exists j :: IsCounted(k, ballots, v, j)
                                           && m[v] == Entry(Classify(k, ballots[j]).choice, ballots[j].timestamp))
  }

  /** Appending one ballot: real votes of other voters and counted status of old
      ballots depend only on the prefix. */
  lemma RealOfAppend(k: Keyring, pre: seq<Ballot>, b: Ballot, v: string, i: int)
    requires i < |pre|
    ensures IsRealOf(k, pre + [b], v, i) <==> IsRealOf(k, pre, v, i)
  {
    if 0 <= i {
      assert (pre + [b])[i] == pre[i];
    }
  }

  /** After appending `b`, voter `v` has an entry iff they have a real vote. */
  lemma StepKeys(k: Keyring, pre: seq<Ballot>, b: Ballot, v: string)
    requires FoldMatches(k, pre, Fold(k, pre))
    ensures v in Step(Fold(k, pre), b, Classify(k, b)) <==> exists j :: IsRealOf(k, pre + [b], v, j)
  {
    var ballots, n := pre + [b], |pre|;
    var o := Classify(k, b);
    assert ballots[n] == b;
    if v == b.voter && o.Real? {
      assert IsRealOf(k, ballots, v, n);
    } else if exists j :: IsRealOf(k, ballots, v, j) {
      var j :| IsRealOf(k, ballots, v, j);
      RealOfAppend(k, pre, b, v, j);
      assert IsRealOf(k, pre, v, j);
    } else if v in Fold(k, pre) {
      var j :| IsRealOf(k, pre, v, j);
      RealOfAppend(k, pre, b, v, j);
    }
  }

  /** `b` becomes the counted ballot of a voter whose earlier real votes all have
      smaller timestamps. */
  lemma StepNewCounted(k: Keyring, pre: seq<Ballot>, b: Ballot)
    requires Classify(k, b).Real?
    requires forall i :: IsRealOf(k, pre, b.voter, i) ==> pre[i].timestamp < b.timestamp
    ensures IsCounted(k, pre + [b], b.voter, |pre|)
  {
    var ballots, n := pre + [b], |pre|;
    assert ballots[n] == b;
    forall i | IsRealOf(k, ballots, b.voter, i) && i < n
      ensures ballots[i].timestamp < b.timestamp
    {
      RealOfAppend(k, pre, b, b.voter, i);
    }
  }

  /** A counted ballot stays counted when a later ballot of no greater timestamp,
      or of another voter, or not real, is appended. */
  lemma StepKeepsCounted(k: Keyring, pre: seq<Ballot>, b: Ballot, v: string, j: int)
    requires IsCounted(k, pre, v, j)
    requires Classify(k, b).Real? && b.voter == v ==> b.timestamp <= pre[j].timestamp
    ensures IsCounted(k, pre + [b], v, j)
  {
    var ballots, n := pre + [b], |pre|;
    assert ballots[n] == b;
    assert ballots[j] == pre[j];
    forall i | IsRealOf(k, ballots, v, i)
      ensures ballots[i].timestamp <= ballots[j].timestamp
      ensures i < j ==> ballots[i].timestamp < ballots[j].timestamp
    {
      if i < n {
        RealOfAppend(k, pre, b, v, i);
      }
    }
    RealOfAppend(k, pre, b, v, j);
  }

  /** After appending `b`, an entry is the one of the counted ballot. */
  lemma StepEntry(k: Keyring, pre: seq<Ballot>, b: Ballot, v: string)
    requires FoldMatches(k, pre, Fold(k, pre))
    requires v in Step(Fold(k, pre), b, Classify(k, b))
    ensures exists j :: IsCounted(k, pre + [b], v, j)
                        && Step(Fold(k, pre), b, Classify(k, b))[v]
                           == Entry(Classify(k, (pre + [b])[j]).choice, (pre + [b])[j].timestamp)
  {
    var m, o := Fold(k, pre), Classify(k, b);
    if v == b.voter && o.Real? && (v !in m || b.timestamp > m[v].timestamp) {
      StepEntryReplaced(k, pre, b);
    } else {
      StepEntryKept(k, pre, b, v);
    }
  }

  /** The new ballot replaces the voter's entry: it is the counted one. */
  lemma StepEntryReplaced(k: Keyring, pre: seq<Ballot>, b: Ballot)
    requires FoldMatches(k, pre, Fold(k, pre))
    requires Classify(k, b).Real?
    requires b.voter !in Fold(k, pre) || b.timestamp > Fold(k, pre)[b.voter].timestamp
    ensures IsCounted(k, pre + [b], b.voter, |pre|)
    ensures Step(Fold(k, pre), b, Classify(k, b))[b.voter]
            == Entry(Classify(k, (pre + [b])[|pre|]).choice, (pre + [b])[|pre|].timestamp)
  {
    var m, v := Fold(k, pre), b.voter;
    assert (pre + [b])[|pre|] == b;
    if v in m {
      var j :| IsCounted(k, pre, v, j) && m[v] == Entry(Classify(k, pre[j]).choice, pre[j].timestamp);
    } else {
      assert forall i :: !IsRealOf(k, pre, v, i);
    }
    StepNewCounted(k, pre, b);
  }

  /** The voter's entry is unchanged, and so is its counted ballot. */
  lemma StepEntryKept(k: Keyring, pre: seq<Ballot>, b: Ballot, v: string)
    requires FoldMatches(k, pre, Fold(k, pre))
    requires v in Step(Fold(k, pre), b, Classify(k, b))
    requires !(v == b.voter && Classify(k, b).Real?
               && (v !in Fold(k, pre) || b.timestamp > Fold(k, pre)[v].timestamp))
    ensures exists j :: IsCounted(k, pre + [b], v, j)
                        && Step(Fold(k, pre), b, Classify(k, b))[v]
                           == Entry(Classify(k, (pre + [b])[j]).choice, (pre + [b])[j].timestamp)
  {
    var m := Fold(k, pre);
    assert v in m;
    var j :| IsCounted(k, pre, v, j) && m[v] == Entry(Classify(k, pre[j]).choice, pre[j].timestamp);
    StepKeepsCounted(k, pre, b, v, j);
    assert (pre + [b])[j] == pre[j];
    assert Step(m, b, Classify(k, b))[v] == m[v];
  }

  lemma {:induction false} FoldStep(k: Keyring, pre: seq<Ballot>, b: Ballot)
    requires FoldMatches(k, pre, Fold(k, pre))
    ensures FoldMatches(k, pre + [b], Fold(k, pre + [b]))
  {
    var ballots := pre + [b];
    assert ballots[..|pre|] == pre;
    assert Fold(k, ballots) == Step(Fold(k, pre), b, Classify(k, b));
    forall v
      ensures v in Fold(k, ballots) <==> exists j :: IsRealOf(k, ballots, v, j)
    {
      StepKeys(k, pre, b, v);
    }
    forall v | v in Fold(k, ballots)
      ensures exists j :: IsCounted(k, ballots, v, j)
                          && Fold(k, ballots)[v] == Entry(Classify(k, ballots[j]).choice, ballots[j].timestamp)
    {
      StepEntry(k, pre, b, v);
    }
  }

  /** The fold's result is exactly the reference: a voter has an entry iff they
      cast at least one real vote, and the entry is the choice and timestamp of the
      ballot counted for them. */
  lemma {:induction false} FoldCountsLastRealVote(k: Keyring, ballots: seq<Ballot>)
    ensures FoldMatches(k, ballots, Fold(k, ballots))
    decreases |ballots|
  {
    if |ballots| > 0 {
      var pre, b := ballots[..|ballots| - 1], ballots[|ballots| - 1];
      FoldCountsLastRealVote(k, pre);
      FoldStep(k, pre, b);
      assert pre + [b] == ballots;
    }
  }

  // ---------------------------------------------------------------------------
  // Counting (src/tally.rs:183-197)
  // ---------------------------------------------------------------------------

  /** How many voters' stored votes are `c`. */
  function CountChoice(m: VoteMap, c: Choice): nat
  {
    |set v | v in m && m[v].choice == c|
  }

  /** Ballot `j`, counted for `v`, is a real vote for `c`. */
  ghost predicate CountedFor(k: Keyring, ballots: seq<Ballot>, v: string, c: Choice)
  {
    exists j :: IsCounted(k, ballots, v, j) && Classify(k, ballots[j]) == Real(c)
  }

  /** The voters whose counted ballot is a vote for `c`. */
  ghost function Supporters(k: Keyring, ballots: seq<Ballot>, c: Choice): set<string>
  {
    set v | v in RealVoters(k, ballots) && CountedFor(k, ballots, v, c)
  }

  lemma ChoicePartition(m: VoteMap)
    ensures CountChoice(m, Yes) + CountChoice(m, No) == |m|
  {
    var yes := set v | v in m && m[v].choice == Yes;
    var no := set v | v in m && m[v].choice == No;
    assert yes + no == m.Keys;
    assert yes * no == {};
    assert |yes + no| == |yes| + |no|;
  }

  /** The voters with an entry are the real voters. */
  lemma FoldKeys(k: Keyring, ballots: seq<Ballot>)
    ensures Fold(k, ballots).Keys == RealVoters(k, ballots)
  {
    FoldCountsLastRealVote(k, ballots);
    var m := Fold(k, ballots);
    forall v | v in m
      ensures v in RealVoters(k, ballots)
    {
      var j :| IsRealOf(k, ballots, v, j);
    }
    forall v | v in RealVoters(k, ballots)
      ensures v in m
    {
      var j :| 0 <= j < |ballots| && Classify(k, ballots[j]).Real? && ballots[j].voter == v;
      assert IsRealOf(k, ballots, v, j);
    }
  }

  /** A stored choice is the choice of the counted ballot. */
  lemma FoldChoice(k: Keyring, ballots: seq<Ballot>, v: string, c: Choice)
    requires FoldMatches(k, ballots, Fold(k, ballots))
    requires v in Fold(k, ballots)
    ensures Fold(k, ballots)[v].choice == c <==> CountedFor(k, ballots, v, c)
  {
    var m := Fold(k, ballots);
    var j :| IsCounted(k, ballots, v, j) && m[v] == Entry(Classify(k, ballots[j]).choice, ballots[j].timestamp);
    if CountedFor(k, ballots, v, c) {
      var j2 :| IsCounted(k, ballots, v, j2) && Classify(k, ballots[j2]) == Real(c);
      CountedUnique(k, ballots, v, j, j2);
    }
  }

  lemma SupportersAreStored(k: Keyring, ballots: seq<Ballot>, c: Choice)
    ensures (set v | v in Fold(k, ballots) && Fold(k, ballots)[v].choice == c) == Supporters(k, ballots, c)
  {
    FoldKeys(k, ballots);
    FoldCountsLastRealVote(k, ballots);
    forall v | v in Fold(k, ballots)
      ensures Fold(k, ballots)[v].choice == c <==> CountedFor(k, ballots, v, c)
    {
      FoldChoice(k, ballots, v, c);
    }
  }

  /** The counts are the numbers of supporters in the reference, and every voter
      with a real vote is counted exactly once: `yes + no` is the number of distinct
      voters who cast at least one real vote. */
  lemma CountsMatchReference(k: Keyring, ballots: seq<Ballot>)
    ensures CountChoice(Fold(k, ballots), Yes) == |Supporters(k, ballots, Yes)|
    ensures CountChoice(Fold(k, ballots), No) == |Supporters(k, ballots, No)|
    ensures |Supporters(k, ballots, Yes)| + |Supporters(k, ballots, No)| == |RealVoters(k, ballots)|
  {
    SupportersAreStored(k, ballots, Yes);
    SupportersAreStored(k, ballots, No);
    FoldKeys(k, ballots);
    ChoicePartition(Fold(k, ballots));
  }

  // ---------------------------------------------------------------------------
  // Order (in)dependence
  // ---------------------------------------------------------------------------

  /** Real votes of one voter that share a timestamp agree on the choice. */
  ghost predicate TiesAgree(k: Keyring, ballots: seq<Ballot>)
  {
    forall i, j ::
      0 <= i < |ballots| && 0 <= j < |ballots| && Classify(k, ballots[i]).Real? && Classify(k, ballots[j]).Real?
      && ballots[i].voter == ballots[j].voter && ballots[i].timestamp == ballots[j].timestamp
      ==> Classify(k, ballots[i]) == Classify(k, ballots[j])
  }

  /** Both folds hold, for `v`, the counted ballot's timestamp; the counted
      ballots of two permutations of each other have equal timestamps. */
  lemma CountedTimestampsAgree(k: Keyring, a: seq<Ballot>, b: seq<Ballot>, v: string, ja: int, jb: int)
    requires multiset(a) == multiset(b)
    requires IsCounted(k, a, v, ja) && IsCounted(k, b, v, jb)
    ensures a[ja].timestamp == b[jb].timestamp
  {
    assert a[ja] in multiset(b);
    var ib :| 0 <= ib < |b| && b[ib] == a[ja];
    assert IsRealOf(k, b, v, ib);
    assert b[jb] in multiset(a);
    var ia :| 0 <= ia < |a| && a[ia] == b[jb];
    assert IsRealOf(k, a, v, ia);
  }

  /** A voter has a real vote in one permutation iff in the other. */
  lemma RealOfPermutation(k: Keyring, a: seq<Ballot>, b: seq<Ballot>, v: string, j: int)
    requires multiset(a) == multiset(b)
    requires IsRealOf(k, a, v, j)
    ensures exists i :: IsRealOf(k, b, v, i) && b[i] == a[j]
  {
    assert a[j] in multiset(b);
    var i :| 0 <= i < |b| && b[i] == a[j];
    assert IsRealOf(k, b, v, i);
  }

  lemma PermutationKeys(k: Keyring, a: seq<Ballot>, b: seq<Ballot>, v: string)
    requires multiset(a) == multiset(b)
    ensures v in Fold(k, a) ==> v in Fold(k, b)
  {
    FoldCountsLastRealVote(k, a);
    FoldCountsLastRealVote(k, b);
    if v in Fold(k, a) {
      var j :| IsRealOf(k, a, v, j);
      RealOfPermutation(k, a, b, v, j);
    }
  }

  lemma PermutationEntry(k: Keyring, a: seq<Ballot>, b: seq<Ballot>, v: string)
    requires multiset(a) == multiset(b)
    requires TiesAgree(k, a)
    requires v in Fold(k, a) && v in Fold(k, b)
    ensures Fold(k, a)[v] == Fold(k, b)[v]
  {
    FoldCountsLastRealVote(k, a);
    FoldCountsLastRealVote(k, b);
    var ma, mb := Fold(k, a), Fold(k, b);
    var ja :| IsCounted(k, a, v, ja) && ma[v] == Entry(Classify(k, a[ja]).choice, a[ja].timestamp);
    var jb :| IsCounted(k, b, v, jb) && mb[v] == Entry(Classify(k, b[jb]).choice, b[jb].timestamp);
    CountedTimestampsAgree(k, a, b, v, ja, jb);
    RealOfPermutation(k, b, a, v, jb);
    var ia :| IsRealOf(k, a, v, ia) && a[ia] == b[jb];
    assert Classify(k, a[ia]) == Classify(k, a[ja]);
  }

  /** When tied real votes of a voter agree, the tally does not depend on the order
      in which the ballots were submitted. */
  lemma FoldPermutationInvariant(k: Keyring, a: seq<Ballot>, b: seq<Ballot>)
    requires multiset(a) == multiset(b)
    requires TiesAgree(k, a)
    ensures Fold(k, a) == Fold(k, b)
  {
    forall v
      ensures v in Fold(k, a) <==> v in Fold(k, b)
    {
      PermutationKeys(k, a, b, v);
      PermutationKeys(k, b, a, v);
    }
    forall v | v in Fold(k, a)
      ensures Fold(k, a)[v] == Fold(k, b)[v]
    {
      PermutationEntry(k, a, b, v);
    }
  }

  /** Without that condition the order matters: of two real votes of one voter
      with equal timestamps, the one submitted first is counted. */
  lemma TiedVotesDependOnOrder(k: Keyring, first: Ballot, second: Ballot)
    requires first.voter == second.voter && first.timestamp == second.timestamp
    requires DecryptsTo(k, first, "yes") && DecryptsTo(k, second, "no")
    ensures Fold(k, [first, second])[first.voter] == Entry(Yes, first.timestamp)
    ensures Fold(k, [second, first])[first.voter] == Entry(No, first.timestamp)
  {
    assert Classify(k, first) == Real(Yes);
    assert Classify(k, second) == Real(No);
    assert Fold(k, []) == map[];
    var m1 := Fold(k, [first]);
    assert [first][..0] == [];
    assert m1 == Step(map[], first, Real(Yes));
    assert [first, second][..1] == [first];
    assert Fold(k, [first, second]) == Step(m1, second, Real(No));
    var m2 := Fold(k, [second]);
    assert [second][..0] == [];
    assert m2 == Step(map[], second, Real(No));
    assert [second, first][..1] == [second];
    assert Fold(k, [second, first]) == Step(m2, first, Real(Yes));
  }
}

=== FILE: attestation.dfy ===
/** The placeholder TEE attestation of src/tally.rs:435-463: a tagged SHA-256 of the
    proposal id, the votes Merkle root and the two counts. */
module Attestation {
  import opened Wrappers
  import opened Bytes
  import Hex
  import opened Merkle

  const Tag := "mvp-attestation:"

  /** The bytes hashed: `proposal_id` (8 bytes LE), the root's UTF-8, then the yes
      and no counts (4 bytes LE each). */
  function Commitment(pid: u64, root: string, yes: u32, no: u32): seq<uint8>
  {
    Le8(pid) + Utf8(root) + Le4(yes) + Le4(no)
  }

  /** `generate_tee_attestation`: the tag followed by the hex digest of the
      commitment. */
  function GenerateTeeAttestation(h: Hasher, pid: u64, root: string, yes: u32, no: u32): (a: string)
    ensures |a| == |Tag| + 64
    ensures a[..|Tag|] == Tag
    ensures Hex.Decode(a[|Tag|..]) == Some(h(Commitment(pid, root, yes, no)))
  {
    var digest := Hex.Encode(h(Commitment(pid, root, yes, no)));
    Hex.DecodeEncode(h(Commitment(pid, root, yes, no)));
    assert (Tag + digest)[|Tag|..] == digest;
    Tag + digest
  }

  /** The commitment determines every field: the two fixed-width integers frame the
      root, so its bytes are recovered exactly. */
  lemma CommitmentInjective(pid: u64, root: string, yes: u32, no: u32,
                            pid2: u64, root2: string, yes2: u32, no2: u32)
    requires Commitment(pid, root, yes, no) == Commitment(pid2, root2, yes2, no2)
    ensures pid == pid2 && root == root2 && yes == yes2 && no == no2
  {
    var c := Commitment(pid, root, yes, no);
    var n := |Utf8(root)|;
    assert |Utf8(root2)| == n;
    assert Le8(pid) == c[..8] == Le8(pid2);
    assert Utf8(root) == c[8..8 + n] == Utf8(root2);
    assert Le4(yes) == c[8 + n..12 + n] == Le4(yes2);
    assert Le4(no) == c[12 + n..] == Le4(no2);
    Utf8Injective(root, root2);
  }

  /** An attestation binds the proposal, the votes root and both counts: two equal
      attestations agree on all four, unless SHA-256 has a collision. */
  lemma AttestationBinding(h: Hasher, pid: u64, root: string, yes: u32, no: u32,
                           pid2: u64, root2: string, yes2: u32, no2: u32)
    requires GenerateTeeAttestation(h, pid, root, yes, no) == GenerateTeeAttestation(h, pid2, root2, yes2, no2)
    ensures (pid == pid2 && root == root2 && yes == yes2 && no == no2) || HasCollision(h)
  {
    var a, a2 := Commitment(pid, root, yes, no), Commitment(pid2, root2, yes2, no2);
    var att := GenerateTeeAttestation(h, pid, root, yes, no);
    assert Some(h(a)) == Hex.Decode(att[|Tag|..]) == Some(h(a2));
    if a == a2 {
      CommitmentInjective(pid, root, yes, no, pid2, root2, yes2, no2);
    } else {
      assert a != a2 && h(a) == h(a2);
    }
  }
}

=== FILE: ballots.dfy ===
/** The ballots the engine receives: one per `cast_vote` call, in submission order. */
module Ballots {
  import opened Bytes

  /** `VoteData`: the voter's account id, the hex-encoded ECIES ciphertext, and the
      block timestamp of the `cast_vote` call. */
  datatype Ballot = Ballot(voter: string, ciphertext: string, timestamp: u64)

  /** `user.as_bytes() ‖ timestamp.to_le_bytes() ‖ encrypted_vote.as_bytes()`, the
      byte string that both the Merkle leaf and the votes hash feed to SHA-256. The
      ciphertext enters as the bytes of its hex text, not as the decoded bytes. */
  function Preimage(b: Ballot): seq<uint8>
  {
    Utf8(b.voter) + Le8(b.timestamp) + Utf8(b.ciphertext)
  }

  /** Between ballots of one voter at one timestamp, the preimage determines the
      ciphertext. */
  lemma PreimageDeterminesCiphertext(a: Ballot, b: Ballot)
    requires a.voter == b.voter && a.timestamp == b.timestamp
    requires Preimage(a) == Preimage(b)
    ensures a == b
  {
    var prefix := Utf8(a.voter) + Le8(a.timestamp);
    assert Utf8(a.ciphertext) == Preimage(a)[|prefix|..];
    assert Utf8(b.ciphertext) == Preimage(b)[|prefix|..];
    Utf8Injective(a.ciphertext, b.ciphertext);
  }

  /** The concatenation has no separators, so in general it does not determine the
      ballot: here two different ballots share a preimage. */
  lemma PreimageAmbiguous()
    ensures Ballot("a", "\0", 98) != Ballot("ab", "", 0)
    ensures Preimage(Ballot("a", "\0", 98)) == Preimage(Ballot("ab", "", 0))
  {
    Pow256Widths();
    LittleEndianSmall(98, 8);
    LittleEndianSmall(0, 8);
    assert Le8(98) == [98, 0, 0, 0, 0, 0, 0, 0];
    assert Le8(0) == [0, 0, 0, 0, 0, 0, 0, 0];
    assert Utf8("a") == [0x61];
    assert Utf8("ab") == [0x61, 0x62];
    assert Utf8("\0") == [0];
  }
}

=== FILE: bytes.dfy ===
/** Machine integers, little-endian byte encodings and the UTF-8 encoding that Rust's
    `str::as_bytes` exposes. The tally engine hashes these encodings, so the model
    gives them concrete definitions and proves the injectivity facts the commitment
    arguments need. */
module Bytes {

  newtype uint8 = x: int | 0 <= x < 256

  const U32_LIMIT: nat := 0x1_0000_0000
  const U64_LIMIT: nat := 0x1_0000_0000_0000_0000

  /** Rust's `u32` and `u64`. */
  type u32 = x: nat | x < U32_LIMIT
  type u64 = x: nat | x < U64_LIMIT

  /** Wrap-around to 32 bits, as a `u32` counter does in a release build. */
  function Wrap32(n: nat): (r: u32)
    ensures n < U32_LIMIT ==> r == n
  {
    n % U32_LIMIT
  }

  /** `u32` addition with wrap-around, as `yes_count + no_count` in a release
      build. */
  function WrappingAdd32(a: u32, b: u32): (r: u32)
    ensures a as int + b as int < U32_LIMIT ==> r as int == a as int + b as int
  {
    Wrap32(a as nat + b as nat)
  }

  /** Adding two wrapped counters wraps their exact sum. */
  lemma Wrap32Add(a: nat, b: nat)
    ensures WrappingAdd32(Wrap32(a), Wrap32(b)) == Wrap32(a + b)
  {
    var qa, qb := a / U32_LIMIT, b / U32_LIMIT;
    assert a == qa * U32_LIMIT + Wrap32(a);
    assert b == qb * U32_LIMIT + Wrap32(b);
    assert a + b == (qa + qb) * U32_LIMIT + (Wrap32(a) + Wrap32(b));
  }

  function Pow256(width: nat): (p: nat)
    ensures p >= 1
  {
    if width == 0 then 1 else 256 * Pow256(width - 1)
  }

  lemma Pow256Widths()
    ensures Pow256(4) == U32_LIMIT
    ensures Pow256(8) == U64_LIMIT
  {
    assert Pow256(2) == 0x1_0000;
    assert Pow256(4) == 0x1_0000_0000;
  }

  /** `to_le_bytes` of an unsigned integer that is `width` bytes wide. */
  function LittleEndian(n: nat, width: nat): (bs: seq<uint8>)
    requires n < Pow256(width)
    ensures |bs| == width
    ensures FromLittleEndian(bs) == n
  {
    if width == 0 then []
    else
      var rest := LittleEndian(n / 256, width - 1);
      [(n % 256) as uint8] + rest
  }

  /** The number a little-endian byte string denotes. */
  function FromLittleEndian(bs: seq<uint8>): nat
  {
    if |bs| == 0 then 0 else bs[0] as nat + 256 * FromLittleEndian(bs[1..])
  }

  /** `u64::to_le_bytes`. */
  function Le8(n: u64): (bs: seq<uint8>)
    ensures |bs| == 8
  {
    Pow256Widths();
    LittleEndian(n, 8)
  }

  /** `u32::to_le_bytes`. */
  function Le4(n: u32): (bs: seq<uint8>)
    ensures |bs| == 4
  {
    Pow256Widths();
    LittleEndian(n, 4)
  }

  lemma {:induction false} LittleEndianZero(width: nat)
    ensures LittleEndian(0, width) == seq(width, i => 0 as uint8)
  {
    if width > 0 {
      LittleEndianZero(width - 1);
    }
  }

  /** A value below 256 is its own first byte, followed by zeros. */
  lemma LittleEndianSmall(n: nat, width: nat)
    requires n < 256 && width >= 1
    ensures LittleEndian(n, width) == [n as uint8] + seq(width - 1, i => 0 as uint8)
  {
    LittleEndianZero(width - 1);
  }

  /** Distinct integers of one width have distinct encodings. */
  lemma LittleEndianInjective(n: nat, m: nat, width: nat)
    requires n < Pow256(width) && m < Pow256(width)
    requires LittleEndian(n, width) == LittleEndian(m, width)
    ensures n == m
  {
  }

  // ---------------------------------------------------------------------------
  // UTF-8 (the bytes of a Rust `String`)
  // ---------------------------------------------------------------------------

  /** The UTF-8 encoding of one Unicode scalar value: the value's bits, six at a
      time from the low end, fill the continuation bytes. */
  function Utf8Char(c: char): (bs: seq<uint8>)
    ensures 1 <= |bs| <= 4
    ensures |bs| == Utf8SequenceLength(bs[0])
  {
    var n := c as int;
    var r1 := n / 0x40;
    var r2 := r1 / 0x40;
    var r3 := r2 / 0x40;
    if n < 0x80 then [n as uint8]
    else if n < 0x800 then
      [(0xC0 + r1) as uint8, (0x80 + n % 0x40) as uint8]
    else if n < 0x1_0000 then
      [(0xE0 + r2) as uint8, (0x80 + r1 % 0x40) as uint8, (0x80 + n % 0x40) as uint8]
    else
      [(0xF0 + r3) as uint8, (0x80 + r2 % 0x40) as uint8,
       (0x80 + r1 % 0x40) as uint8, (0x80 + n % 0x40) as uint8]
  }

  /** How many bytes a UTF-8 sequence has, read off its lead byte. */
  function Utf8SequenceLength(lead: uint8): nat
  {
    if lead < 0x80 then 1
    else if lead < 0xE0 then 2
    else if lead < 0xF0 then 3
    else 4
  }

  /** `s.as_bytes()`. */
  function Utf8(s: string): (bs: seq<uint8>)
    ensures |bs| >= |s|
  {
    if |s| == 0 then [] else Utf8Char(s[0]) + Utf8(s[1..])
  }

  /** The scalar value a well-formed UTF-8 sequence of one character denotes. */
  function Utf8CharValue(bs: seq<uint8>): int
    requires 1 <= |bs| <= 4
  {
    if |bs| == 1 then bs[0] as int
    else if |bs| == 2 then (bs[0] as int - 0xC0) * 0x40 + (bs[1] as int - 0x80)
    else if |bs| == 3 then
      (bs[0] as int - 0xE0) * 0x1000 + (bs[1] as int - 0x80) * 0x40 + (bs[2] as int - 0x80)
    else
      (bs[0] as int - 0xF0) * 0x4_0000 + (bs[1] as int - 0x80) * 0x1000
        + (bs[2] as int - 0x80) * 0x40 + (bs[3] as int - 0x80)
  }

  lemma Utf8CharDecodes(c: char)
    ensures Utf8CharValue(Utf8Char(c)) == c as int
  {
    var n := c as int;
    var r1 := n / 0x40;
    var r2 := r1 / 0x40;
    var r3 := r2 / 0x40;
    assert n == r1 * 0x40 + n % 0x40;
    assert r1 == r2 * 0x40 + r1 % 0x40;
    assert r2 == r3 * 0x40 + r2 % 0x40;
  }

  /** Distinct characters have distinct encodings. */
  lemma Utf8CharInjective(c: char, d: char)
    requires Utf8Char(c) == Utf8Char(d)
    ensures c == d
  {
    Utf8CharDecodes(c);
    Utf8CharDecodes(d);
  }

  lemma {:induction false} Utf8Append(s: string, t: string)
    ensures Utf8(s + t) == Utf8(s) + Utf8(t)
  {
    if |s| > 0 {
      assert (s + t)[0] == s[0];
      assert (s + t)[1..] == s[1..] + t;
      Utf8Append(s[1..], t);
    } else {
      assert s + t == t;
    }
  }

  /** UTF-8 is a prefix code, so `as_bytes` is injective: distinct strings have
      distinct byte representations. */
  lemma {:induction false} Utf8Injective(s: string, t: string)
    requires Utf8(s) == Utf8(t)
    ensures s == t
    decreases |s|
  {
    if |s| > 0 && |t| > 0 {
      var cs, ct := Utf8Char(s[0]), Utf8Char(t[0]);
      assert cs[0] == Utf8(s)[0] == Utf8(t)[0] == ct[0];
      assert |cs| == |ct|;
      assert cs == Utf8(s)[..|cs|] == Utf8(t)[..|ct|] == ct;
      Utf8CharInjective(s[0], t[0]);
      assert Utf8(s[1..]) == Utf8(s)[|cs|..] == Utf8(t)[|ct|..] == Utf8(t[1..]);
      Utf8Injective(s[1..], t[1..]);
      assert s == [s[0]] + s[1..];
      assert t == [t[0]] + t[1..];
    }
  }

  /** An ASCII string encodes to one byte per character, the character's code. */
  predicate IsAscii(s: string)
  {
    forall i :: 0 <= i < |s| ==> s[i] as int < 0x80
  }

  lemma {:induction false} Utf8Ascii(s: string)
    requires IsAscii(s)
    ensures |Utf8(s)| == |s|
    ensures forall i :: 0 <= i < |s| ==> Utf8(s)[i] as int == s[i] as int
  {
    if |s| > 0 {
      Utf8Ascii(s[1..]);
    }
  }
}

=== FILE: crypto.dfy ===
/** The cryptographic primitives the engine calls into. SHA-256 and ECIES are not
    modelled: they are carried as arbitrary functions in a `Primitives` value, so
    every property proved here holds for every choice of them. The one piece of
    local logic, the HKDF info label of `derive_keypair` (src/crypto.rs:31), is
    modelled exactly. */
module Crypto {
  import opened Wrappers
  import opened Bytes

  /** A SHA-256 digest: 32 bytes. */
  type Digest = d: seq<uint8> | |d| == 32 witness seq(32, i => 0 as uint8)

  /** `sha256` is `Sha256::digest`; `decrypt(secret, info, ct)` is ECIES decryption
      (followed by the UTF-8 check of `String::from_utf8`) under the secp256k1 key
      that HKDF-SHA256 expands from `secret` with the info label `info`. Both are
      deterministic, as the source's are. */
  datatype Primitives = Primitives(
    sha256: seq<uint8> -> Digest,
    decrypt: (seq<uint8>, string, seq<uint8>) -> Option<string>)

  /** The HKDF info label `"ecies:{dao}:{user}"`. */
  function KeyInfo(dao: string, user: string): (info: string)
    ensures |info| == 7 + |dao| + |user|
    ensures info[..6] == "ecies:" && info[6 + |dao|] == ':'
    ensures info[6..6 + |dao|] == dao && info[7 + |dao|..] == user
  {
    "ecies:" + dao + ":" + user
  }

  /** For one DAO, distinct users get distinct labels, hence keys derived from
      distinct HKDF inputs. */
  lemma KeyInfoInjective(dao: string, u1: string, u2: string)
    requires KeyInfo(dao, u1) == KeyInfo(dao, u2)
    ensures u1 == u2
  {
    assert u1 == KeyInfo(dao, u1)[7 + |dao|..];
  }

  /** The label alone does not separate DAOs from users: a `:` inside the DAO id can
      be traded for one inside the user id. */
  lemma KeyInfoAmbiguousAcrossDaos()
    ensures KeyInfo("a:b", "c") == KeyInfo("a", "b:c")
  {
  }

  /** `crypto::decrypt_vote`: decrypt `ciphertext` with the key derived for `user`
      of `dao` from the master secret. */
  function DecryptVote(p: Primitives, secret: seq<uint8>, dao: string, user: string,
                       ciphertext: seq<uint8>): Option<string>
  {
    p.decrypt(secret, KeyInfo(dao, user), ciphertext)
  }
}

=== FILE: dao.dfy ===
/** The contract's state transitions (dao-contract/src/lib.rs:114-634). A call that
    panics is a `Failure`: the runtime rolls the whole call back, so the state is
    unchanged. A call that returns a `Promise` yields the request it sends. */
module Dao {
  import opened Wrappers
  import opened Bytes
  import opened Quorum
  import opened DaoTypes
  import opened DaoViews

  /** `new`: the owner is the first member; proposal ids start at 1. The method is
      not `#[payable]`, so the code `#[near_bindgen]` generates rejects an attached
      deposit before the body runs. */
  function New(stateExists: bool, deposit: nat, name: string, mode: MembershipMode, owner: AccountId): (r: Result<PrivateDao, Error>)
    ensures r.Failure? <==> deposit != 0 || stateExists
    ensures deposit != 0 ==> r == Failure(DepositNotAccepted)
    ensures r.Success? ==>
      && r.value.members == {owner} && r.value.memberCount == 1
      && r.value.owner == owner && r.value.mode == mode && r.value.name == name
      && r.value.pubkeys == map[] && r.value.proposals == map[] && r.value.votes == map[]
      && r.value.nextProposalId == 1
  {
    if deposit != 0 then Failure(DepositNotAccepted)
    else if stateExists then Failure(AlreadyInitialized)
    else Success(PrivateDao(owner, name, mode, {owner}, 1, map[], map[], 1, map[]))
  }

  /** `join_dao` (public mode): a non-member paying storage plus key derivation
      becomes a member, and a key derivation is requested for them. */
  function JoinDao(d: PrivateDao, env: Env): (r: Result<(PrivateDao, KeyRequest), Error>)
    ensures r.Success? <==>
      env.caller !in d.members && d.mode.Public?
      && env.deposit >= STORAGE_DEPOSIT_PER_MEMBER + MIN_OUTLAYER_DEPOSIT
    ensures env.caller in d.members ==> r == Failure(AlreadyMember)
    ensures env.caller !in d.members && d.mode.Private? ==> r == Failure(InvitationOnly)
    ensures r.Success? ==>
      && r.value.0 == d.(members := d.members + {env.caller}, memberCount := d.memberCount + 1)
      && r.value.1 == KeyRequest(env.caller, env.deposit)
  {
    if env.caller in d.members then Failure(AlreadyMember)
    else if d.mode.Private? then Failure(InvitationOnly)
    else if env.deposit < STORAGE_DEPOSIT_PER_MEMBER + MIN_OUTLAYER_DEPOSIT then Failure(InsufficientDeposit)
    else Success((d.(members := d.members + {env.caller}, memberCount := d.memberCount + 1),
                  KeyRequest(env.caller, env.deposit)))
  }

  /** `add_member` (private mode, owner only): pre-approve an account. Not
      `#[payable]`: an attached deposit is rejected before the owner check. */
  function AddMember(d: PrivateDao, env: Env, account: AccountId): (r: Result<PrivateDao, Error>)
    ensures r.Success? <==> env.deposit == 0 && env.caller == d.owner && d.mode.Private? && account !in d.members
    ensures env.deposit != 0 ==> r == Failure(DepositNotAccepted)
    ensures env.deposit == 0 && env.caller != d.owner ==> r == Failure(NotOwner)
    ensures r.Success? ==>
      r.value == d.(members := d.members + {account}, memberCount := d.memberCount + 1)
  {
    if env.deposit != 0 then Failure(DepositNotAccepted)
    else if env.caller != d.owner then Failure(NotOwner)
    else if d.mode.Public? then Failure(PublicDaoJoinDirectly)
    else if account in d.members then Failure(AlreadyMember)
    else Success(d.(members := d.members + {account}, memberCount := d.memberCount + 1))
  }

  /** `complete_join`: a member without a key requests one; nothing is stored
      until the callback. */
  function CompleteJoin(d: PrivateDao, env: Env): (r: Result<KeyRequest, Error>)
    ensures r.Success? <==>
      env.caller in d.members && env.caller !in d.pubkeys && env.deposit >= MIN_OUTLAYER_DEPOSIT
    ensures r.Success? ==> r.value == KeyRequest(env.caller, env.deposit)
  {
    if env.caller !in d.members then Failure(NotPreApproved)
    else if env.caller in d.pubkeys then Failure(AlreadyCompletedJoin)
    else if env.deposit < MIN_OUTLAYER_DEPOSIT then Failure(InsufficientDeposit)
    else Success(KeyRequest(env.caller, env.deposit))
  }

  /** `create_proposal`: a member opens a proposal with a future deadline; it gets
      the next id, starts `Active` with no tally and an empty ballot list, and
      records the member count. */
  function CreateProposal(d: PrivateDao, env: Env, title: string, description: string,
                          quorum: QuorumType, deadline: u64): (r: Result<(PrivateDao, nat), Error>)
    ensures r.Success? <==>
      env.caller in d.members && env.deposit >= PROPOSAL_STORAGE_DEPOSIT && deadline > env.now
    ensures r.Success? ==>
      var (d', id) := r.value;
      && id == d.nextProposalId && d'.nextProposalId == id + 1
      && GetProposal(d', id) == Some(Proposal(id, title, description, env.caller, env.now, deadline,
                                              quorum, Active, d.memberCount, None))
      && GetVotes(d', id) == []
      && (forall other :: other != id ==> GetProposal(d', other) == GetProposal(d, other))
      && (forall other :: other != id ==> GetVotes(d', other) == GetVotes(d, other))
      && d'.members == d.members && d'.pubkeys == d.pubkeys && d'.memberCount == d.memberCount
      && d'.owner == d.owner && d'.name == d.name && d'.mode == d.mode
  {
    if env.caller !in d.members then Failure(OnlyMembersCreate)
    else if env.deposit < PROPOSAL_STORAGE_DEPOSIT then Failure(InsufficientDeposit)
    else if deadline <= env.now then Failure(DeadlineNotInFuture)
    else
      var id := d.nextProposalId;
      var p := Proposal(id, title, description, env.caller, env.now, deadline, quorum, Active, d.memberCount, None);
      Success((d.(nextProposalId := id + 1, proposals := d.proposals[id := p], votes := d.votes[id := []]), id))
  }

  /** The guards of `cast_vote`, in the order the contract checks them. */
  predicate MayVote(d: PrivateDao, env: Env, id: nat)
  {
    && env.caller in d.members
    && env.caller in d.pubkeys
    && env.deposit >= STORAGE_DEPOSIT_PER_VOTE
    && id in d.proposals
    && d.proposals[id].status == Active
    && env.now < d.proposals[id].deadline
  }

  /** `cast_vote`: a member with a key appends a ballot, stamped with the block
      time, to an active proposal before its deadline. */
  function CastVote(d: PrivateDao, env: Env, id: nat, encryptedVote: string, nonce: string): (r: Result<PrivateDao, Error>)
    ensures r.Success? <==> MayVote(d, env, id) && id in d.votes
    ensures r.Success? ==>
      && GetVotes(r.value, id) == GetVotes(d, id) + [Vote(env.caller, encryptedVote, nonce, env.now)]
      && GetVoteCount(r.value, id) == GetVoteCount(d, id) + 1
      && (forall other :: other != id ==> GetVotes(r.value, other) == GetVotes(d, other))
      && r.value.proposals == d.proposals && r.value.members == d.members && r.value.pubkeys == d.pubkeys
  {
    if env.caller !in d.members then Failure(OnlyMembersVote)
    else if env.caller !in d.pubkeys then Failure(JoinNotCompleted)
    else if env.deposit < STORAGE_DEPOSIT_PER_VOTE then Failure(InsufficientDeposit)
    else if id !in d.proposals then Failure(ProposalNotFound)
    else if d.proposals[id].status != Active then Failure(ProposalNotActive)
    else if env.now >= d.proposals[id].deadline then Failure(DeadlinePassed)
    else if id !in d.votes then Failure(VoteListMissing)
    else
      var vote := Vote(env.caller, encryptedVote, nonce, env.now);
      Success(d.(votes := d.votes[id := d.votes[id] + [vote]]))
  }

  /** The guards of `finalize_proposal`, in order. */
  predicate MayFinalize(d: PrivateDao, env: Env, id: nat)
  {
    && env.deposit >= MIN_OUTLAYER_DEPOSIT
    && id in d.proposals
    && d.proposals[id].status == Active
    && env.now >= d.proposals[id].deadline
  }

  /** `finalize_proposal`: anyone paying for execution sends an active proposal's
      ballots, once its deadline has passed, to be tallied; the state only changes
      in the callback. */
  function FinalizeProposal(d: PrivateDao, env: Env, id: nat): (r: Result<TallyRequest, Error>)
    ensures r.Success? <==> MayFinalize(d, env, id) && id in d.votes
    ensures r.Success? ==> r.value == TallyRequest(id, GetVotes(d, id), env.deposit, env.caller)
  {
    if env.deposit < MIN_OUTLAYER_DEPOSIT then Failure(InsufficientDeposit)
    else if id !in d.proposals then Failure(ProposalNotFound)
    else if d.proposals[id].status != Active then Failure(ProposalNotActive)
    else if env.now < d.proposals[id].deadline then Failure(DeadlineNotReached)
    else if id !in d.votes then Failure(VoteListMissing)
    else Success(TallyRequest(id, d.votes[id], env.deposit, env.caller))
  }

  /** `on_key_derived`: store the derived key. On failure the contract removes the
      member and then panics, which rolls the removal back, so the state is
      unchanged. */
  function OnKeyDerived(d: PrivateDao, user: AccountId, result: Callback<string>): (r: Result<PrivateDao, Error>)
    ensures r.Success? <==> result.Response?
    ensures r.Success? ==>
      && GetUserPubkey(r.value, user) == Some(result.value)
      && (forall a :: a != user ==> GetUserPubkey(r.value, a) == GetUserPubkey(d, a))
      && r.value.members == d.members && r.value.proposals == d.proposals && r.value.votes == d.votes
  {
    match result
    case Response(pubkey) => Success(d.(pubkeys := d.pubkeys[user := pubkey]))
    case _ => Failure(KeyDerivationFailed)
  }

  // ---------------------------------------------------------------------------
  // Finalization
  // ---------------------------------------------------------------------------

  /** The quorum conditions of lib.rs:582-598 stated without integer division:
      `total >= members * p / 100` rounds the requirement down, and
      `yes * 100 / total >= p` holds exactly when `yes * 100 >= p * total`. */
  predicate MeetsQuorum(q: QuorumType, membersAtCreation: nat, yes: nat, total: nat)
  {
    match q
    case Absolute(minVotes) => total >= minVotes
    case Percentage(p) => membersAtCreation * p < 100 * (total + 1)
    case PercentageOfVoters(p) => total > 0 && yes * 100 >= p * total
  }

  /** The quorum check as written, with `u64` multiplication that panics on
      overflow. */
  function QuorumMet(q: QuorumType, membersAtCreation: nat, yes: u64, total: u64): (r: Result<bool, Error>)
    ensures r.Failure? <==>
      || (q.Percentage? && membersAtCreation * q.minPercentage >= U64_LIMIT)
      || (q.PercentageOfVoters? && total != 0 && yes * 100 >= U64_LIMIT)
    ensures r.Success? ==> (r.value <==> MeetsQuorum(q, membersAtCreation, yes, total))
  {
    match q
    case Absolute(minVotes) => Success(total >= minVotes)
    case Percentage(p) =>
      var product := membersAtCreation * p;
      if product >= U64_LIMIT then Failure(ArithmeticOverflow)
      else
        FloorDivBound(product, total);
        Success(total >= product / 100)
    case PercentageOfVoters(p) =>
      if total == 0 then Success(false)
      else if yes * 100 >= U64_LIMIT then Failure(ArithmeticOverflow)
      else
        RatioBound(yes * 100, total, p);
        Success((yes * 100) / total >= p)
  }

  /** `t >= x / 100` exactly when `x < 100 * (t + 1)`. */
  lemma FloorDivBound(x: nat, t: nat)
    ensures t >= x / 100 <==> x < 100 * (t + 1)
  {
    var q := x / 100;
    assert x == 100 * q + x % 100;
    if t >= q {
      assert 100 * (t + 1) >= 100 * (q + 1);
    } else {
      assert 100 * (t + 1) <= 100 * q;
    }
  }

  /** `x / t >= p` exactly when `x >= p * t`, for a positive `t`. */
  lemma RatioBound(x: nat, t: nat, p: nat)
    requires t > 0
    ensures x / t >= p <==> x >= p * t
  {
    var q := x / t;
    assert x == t * q + x % t;
    if q >= p {
      assert t * q >= t * p by { MulMonotone(t, p, q); }
    } else {
      assert t * (q + 1) <= t * p by { MulMonotone(t, q + 1, p); }
    }
  }

  lemma MulMonotone(t: nat, a: nat, b: nat)
    requires a <= b
    ensures t * a <= t * b
  {
    assert t * b == t * a + t * (b - a);
  }

  /** `on_votes_tallied`: record the tally and settle the proposal, `Passed` iff the
      quorum is met and yes outnumbers no, `Rejected` otherwise. A failed
      execution, an unknown proposal or an overflow panics. */
  function OnVotesTallied(d: PrivateDao, id: nat, result: Callback<TallyResponse>): (r: Result<PrivateDao, Error>)
    ensures !result.Response? || id !in d.proposals ==> r.Failure?
    ensures r.Success? ==>
      var p, t := d.proposals[id], result.value;
      && GetProposal(r.value, id) == Some(p.(
           status := if MeetsQuorum(p.quorum, p.totalMembersAtCreation, t.yesCount, t.totalVotes)
                        && t.yesCount > t.noCount then Passed else Rejected,
           tallyResult := Some(TallyRecord(t.yesCount, t.noCount, t.totalVotes,
                                           t.teeAttestation, t.votesMerkleRoot))))
      && (forall other :: other != id ==> GetProposal(r.value, other) == GetProposal(d, other))
      && r.value.votes == d.votes && r.value.members == d.members && r.value.pubkeys == d.pubkeys
      && r.value.nextProposalId == d.nextProposalId
    ensures result.Response? && id in d.proposals ==>
      (r.Failure? <==> QuorumMet(d.proposals[id].quorum, d.proposals[id].totalMembersAtCreation,
                                 result.value.yesCount, result.value.totalVotes).Failure?)
  {
    if !result.Response? then Failure(TallyFailed)
    else if id !in d.proposals then Failure(ProposalNotFound)
    else
      var p, t := d.proposals[id], result.value;
      match QuorumMet(p.quorum, p.totalMembersAtCreation, t.yesCount, t.totalVotes)
      case Failure(e) => Failure(e)
      case Success(met) =>
        var passed := met && t.yesCount > t.noCount;
        var record := TallyRecord(t.yesCount, t.noCount, t.totalVotes, t.teeAttestation, t.votesMerkleRoot);
        Success(d.(proposals := d.proposals[id := p.(status := if passed then Passed else Rejected,
                                                     tallyResult := Some(record))]))
  }
}

=== FILE: dao_invariant.dfy ===
/** The invariant every reachable contract state keeps, its preservation by each
    transition, and what it buys: the voting and finalization windows never
    overlap, a settled proposal accepts nothing more, and a tally request carries
    only ballots cast in time by keyed members. */
module DaoInvariant {
  import opened Wrappers
  import opened Bytes
  import opened Quorum
  import opened DaoTypes
  import opened DaoViews
  import opened Dao
  import Ballots
  import Aggregate

  /** A stored ballot was cast by a member holding a key, before the deadline. */
  predicate BallotInTime(d: PrivateDao, id: nat, v: Vote)
    requires id in d.proposals
  {
    v.user in d.members && v.user in d.pubkeys && v.timestamp < d.proposals[id].deadline
  }

  ghost predicate Valid(d: PrivateDao)
  {
    && d.owner in d.members
    && d.memberCount == |d.members|
    && d.nextProposalId >= 1
    && (forall id :: id in d.proposals <==> 1 <= id < d.nextProposalId)
    && d.votes.Keys == d.proposals.Keys
    && (forall id :: id in d.proposals ==> d.proposals[id].id == id)
    && (forall id :: id in d.proposals ==>
          (d.proposals[id].status == Active <==> d.proposals[id].tallyResult.None?))
    && (forall id :: id in d.proposals ==> d.proposals[id].createdAt < d.proposals[id].deadline)
    && (forall id :: id in d.proposals ==> d.proposals[id].totalMembersAtCreation <= d.memberCount)
    && (forall id, i :: id in d.proposals && id in d.votes && 0 <= i < |d.votes[id]| ==>
          BallotInTime(d, id, d.votes[id][i]))
  }

  // ---------------------------------------------------------------------------
  // Preservation
  // ---------------------------------------------------------------------------

  lemma NewIsValid(name: string, mode: MembershipMode, owner: AccountId)
    ensures Valid(New(false, 0, name, mode, owner).value)
  {
  }

  lemma JoinDaoPreservesValid(d: PrivateDao, env: Env)
    requires Valid(d) && JoinDao(d, env).Success?
    ensures Valid(JoinDao(d, env).value.0)
  {
  }

  lemma AddMemberPreservesValid(d: PrivateDao, env: Env, account: AccountId)
    requires Valid(d) && AddMember(d, env, account).Success?
    ensures Valid(AddMember(d, env, account).value)
  {
  }

  lemma CreateProposalPreservesValid(d: PrivateDao, env: Env, title: string, description: string,
                                     quorum: QuorumType, deadline: u64)
    requires Valid(d) && CreateProposal(d, env, title, description, quorum, deadline).Success?
    ensures Valid(CreateProposal(d, env, title, description, quorum, deadline).value.0)
  {
  }

  lemma CastVotePreservesValid(d: PrivateDao, env: Env, id: nat, encryptedVote: string, nonce: string)
    requires Valid(d) && CastVote(d, env, id, encryptedVote, nonce).Success?
    ensures Valid(CastVote(d, env, id, encryptedVote, nonce).value)
  {
  }

  lemma OnKeyDerivedPreservesValid(d: PrivateDao, user: AccountId, result: Callback<string>)
    requires Valid(d) && OnKeyDerived(d, user, result).Success?
    ensures Valid(OnKeyDerived(d, user, result).value)
  {
  }

  lemma OnVotesTalliedPreservesValid(d: PrivateDao, id: nat, result: Callback<TallyResponse>)
    requires Valid(d) && OnVotesTallied(d, id, result).Success?
    ensures Valid(OnVotesTallied(d, id, result).value)
  {
  }

  // ---------------------------------------------------------------------------
  // Consequences
  // ---------------------------------------------------------------------------

  /** At any one block time a proposal accepts ballots or can be finalized, never
      both: a successful vote happens strictly before any successful finalization
      request. */
  lemma VotingPrecedesFinalization(d: PrivateDao, voter: Env, finalizer: Env, id: nat,
                                   encryptedVote: string, nonce: string)
    requires CastVote(d, voter, id, encryptedVote, nonce).Success?
    requires FinalizeProposal(d, finalizer, id).Success?
    ensures voter.now < finalizer.now
  {
  }

  /** A settled proposal takes no more ballots and no second finalization. */
  lemma SettledProposalIsClosed(d: PrivateDao, id: nat, result: Callback<TallyResponse>, env: Env,
                                encryptedVote: string, nonce: string)
    requires OnVotesTallied(d, id, result).Success?
    ensures CastVote(OnVotesTallied(d, id, result).value, env, id, encryptedVote, nonce).Failure?
    ensures FinalizeProposal(OnVotesTallied(d, id, result).value, env, id).Failure?
  {
  }

  /** The engine's view of a stored ballot: the nonce is not sent. */
  function ToBallot(v: Vote): (b: Ballots.Ballot)
    ensures b.voter == v.user && b.ciphertext == v.encryptedVote && b.timestamp == v.timestamp
  {
    Ballots.Ballot(v.user, v.encryptedVote, v.timestamp)
  }

  /** A tally request's ballot list as the engine reads it. */
  function EngineBallots(votes: seq<Vote>): (bs: seq<Ballots.Ballot>)
    ensures |bs| == |votes|
    ensures forall i :: 0 <= i < |bs| ==> bs[i] == ToBallot(votes[i])
  {
    seq(|votes|, i requires 0 <= i < |votes| => ToBallot(votes[i]))
  }

  /** What a tally request carries: the proposal's ballots, every one cast by a
      member holding a key and stamped before the deadline, which has passed. */
  lemma TallyRequestBallotsInTime(d: PrivateDao, env: Env, id: nat)
    requires Valid(d) && FinalizeProposal(d, env, id).Success?
    ensures var req := FinalizeProposal(d, env, id).value;
      && req.votes == d.votes[id]
      && forall i :: 0 <= i < |req.votes| ==>
           && req.votes[i].user in d.members && req.votes[i].user in d.pubkeys
           && req.votes[i].timestamp < d.proposals[id].deadline <= env.now
  {
  }

  /** Whatever key the engine decrypts with, everyone it counts from a tally
      request is a member holding a key, so the disclosed total never exceeds
      the member count. */
  lemma TalliedVotersAreMembers(d: PrivateDao, env: Env, id: nat, k: Aggregate.Keyring)
    requires Valid(d) && FinalizeProposal(d, env, id).Success?
    ensures var voters := Aggregate.RealVoters(k, EngineBallots(FinalizeProposal(d, env, id).value.votes));
      && voters <= d.members && voters <= d.pubkeys.Keys
      && |voters| <= GetDaoInfo(d).memberCount
  {
    var bs := EngineBallots(FinalizeProposal(d, env, id).value.votes);
    var voters := Aggregate.RealVoters(k, bs);
    forall v | v in voters
      ensures v in d.members && v in d.pubkeys
    {
      var j :| 0 <= j < |bs| && Aggregate.Classify(k, bs[j]).Real? && bs[j].voter == v;
      assert BallotInTime(d, id, d.votes[id][j]);
    }
    SubsetCard(voters, d.members);
  }

  lemma {:induction false} SubsetCard(a: set<AccountId>, b: set<AccountId>)
    requires a <= b
    ensures |a| <= |b|
    decreases a
  {
    if a != {} {
      var x :| x in a;
      SubsetCard(a - {x}, b - {x});
    }
  }

  // ---------------------------------------------------------------------------
  // Membership
  // ---------------------------------------------------------------------------

  /** The owner is a member, and the member count is the number of members. */
  lemma InfoConsistent(d: PrivateDao)
    requires Valid(d)
    ensures IsMember(d, GetDaoInfo(d).owner)
    ensures GetDaoInfo(d).memberCount == |d.members|
  {
  }

  /** Only members open proposals, cast ballots or request keys, and joining is
      for non-members. */
  lemma OnlyMembersAct(d: PrivateDao, env: Env, id: nat, encryptedVote: string, nonce: string,
                       title: string, description: string, quorum: QuorumType, deadline: u64)
    ensures CastVote(d, env, id, encryptedVote, nonce).Success? ==> IsMember(d, env.caller)
    ensures CreateProposal(d, env, title, description, quorum, deadline).Success? ==> IsMember(d, env.caller)
    ensures CompleteJoin(d, env).Success? ==> IsMember(d, env.caller)
    ensures JoinDao(d, env).Success? ==> !IsMember(d, env.caller) && IsMember(JoinDao(d, env).value.0, env.caller)
  {
  }

  /** One call to the contract, with the environment it runs in. `CompleteJoin`
      and `FinalizeProposal` only send requests; the callbacks carry the answers. */
  datatype Call =
    | Join(env: Env)
    | Add(env: Env, account: AccountId)
    | Complete(env: Env)
    | Create(env: Env, title: string, description: string, quorum: QuorumType, deadline: u64)
    | Cast(env: Env, id: nat, encryptedVote: string, nonce: string)
    | Finalize(env: Env, id: nat)
    | KeyDerived(user: AccountId, key: Callback<string>)
    | VotesTallied(id: nat, response: Callback<TallyResponse>)

  /** The state after one call: a call that panics leaves the state as it was.
      No call revokes a membership or changes the owner. */
  function Apply(d: PrivateDao, c: Call): (d': PrivateDao)
    ensures forall a :: IsMember(d, a) ==> IsMember(d', a)
    ensures d'.owner == d.owner && d'.mode == d.mode
  {
    match c
    case Join(env) => (match JoinDao(d, env) case Success(r) => r.0 case Failure(_) => d)
    case Add(env, account) => (match AddMember(d, env, account) case Success(r) => r case Failure(_) => d)
    case Complete(_) => d
    case Create(env, title, description, quorum, deadline) =>
      (match CreateProposal(d, env, title, description, quorum, deadline) case Success(r) => r.0 case Failure(_) => d)
    case Cast(env, id, encryptedVote, nonce) =>
      (match CastVote(d, env, id, encryptedVote, nonce) case Success(r) => r case Failure(_) => d)
    case Finalize(_, _) => d
    case KeyDerived(user, key) => (match OnKeyDerived(d, user, key) case Success(r) => r case Failure(_) => d)
    case VotesTallied(id, response) =>
      (match OnVotesTallied(d, id, response) case Success(r) => r case Failure(_) => d)
  }

  function Run(d: PrivateDao, calls: seq<Call>): PrivateDao
    decreases |calls|
  {
    if |calls| == 0 then d else Run(Apply(d, calls[0]), calls[1..])
  }

  lemma ApplyPreservesValid(d: PrivateDao, c: Call)
    requires Valid(d)
    ensures Valid(Apply(d, c))
  {
    match c
    case Join(env) => if JoinDao(d, env).Success? { JoinDaoPreservesValid(d, env); }
    case Add(env, account) => if AddMember(d, env, account).Success? { AddMemberPreservesValid(d, env, account); }
    case Complete(_) =>
    case Create(env, title, description, quorum, deadline) =>
      if CreateProposal(d, env, title, description, quorum, deadline).Success? {
        CreateProposalPreservesValid(d, env, title, description, quorum, deadline);
      }
    case Cast(env, id, encryptedVote, nonce) =>
      if CastVote(d, env, id, encryptedVote, nonce).Success? {
        CastVotePreservesValid(d, env, id, encryptedVote, nonce);
      }
    case Finalize(_, _) =>
    case KeyDerived(user, key) =>
      if OnKeyDerived(d, user, key).Success? { OnKeyDerivedPreservesValid(d, user, key); }
    case VotesTallied(id, response) =>
      if OnVotesTallied(d, id, response).Success? { OnVotesTalliedPreservesValid(d, id, response); }
  }

  /** Every state reachable from a fresh contract satisfies the invariant, and a
      member stays a member through any sequence of calls. */
  lemma {:induction false} RunPreservesValid(d: PrivateDao, calls: seq<Call>)
    requires Valid(d)
    ensures Valid(Run(d, calls))
    ensures forall a :: IsMember(d, a) ==> IsMember(Run(d, calls), a)
    decreases |calls|
  {
    if |calls| > 0 {
      ApplyPreservesValid(d, calls[0]);
      RunPreservesValid(Apply(d, calls[0]), calls[1..]);
    }
  }

  lemma ReachableIsValid(name: string, mode: MembershipMode, owner: AccountId, calls: seq<Call>)
    ensures Valid(Run(New(false, 0, name, mode, owner).value, calls))
    ensures IsMember(Run(New(false, 0, name, mode, owner).value, calls), owner)
  {
    NewIsValid(name, mode, owner);
    RunPreservesValid(New(false, 0, name, mode, owner).value, calls);
  }
}

=== FILE: dao_types.dfy ===
/** The contract's records, declared in dao-contract/src/types.rs and
    dao-contract/src/lib.rs:69-104, with the field sets and types that lib.rs
    builds and reads where the two disagree; its deposit constants; and one error
    per panic message. */
module DaoTypes {
  import opened Wrappers
  import opened Bytes
  import opened Quorum

  /** Deposits in yoctoNEAR (lib.rs:26-33, 266). */
  const MIN_OUTLAYER_DEPOSIT: nat := 10_000_000_000_000_000_000_000
  const STORAGE_DEPOSIT_PER_MEMBER: nat := 2_000_000_000_000_000_000_000
  const STORAGE_DEPOSIT_PER_VOTE: nat := 2_000_000_000_000_000_000_000
  const PROPOSAL_STORAGE_DEPOSIT: nat := 1_000_000_000_000_000_000_000

  type AccountId = string

  /** What the runtime tells a call: who calls, what it attaches, the block time. */
  datatype Env = Env(caller: AccountId, deposit: nat, now: u64)

  datatype MembershipMode = Public | Private

  datatype ProposalStatus = Active | Passed | Rejected

  /** A stored ballot: the ciphertext is opaque to the contract. `nonce` is built
      by lib.rs:365-370 but missing from types.rs:58-64. */
  datatype Vote = Vote(user: AccountId, encryptedVote: string, nonce: string, timestamp: u64)

  /** The tally the contract keeps once a proposal is finalized. */
  datatype TallyRecord = TallyRecord(
    yesCount: u64, noCount: u64, totalVotes: u64, teeAttestation: string, votesMerkleRoot: string)

  datatype Proposal = Proposal(
    id: nat,
    title: string,
    description: string,
    creator: AccountId,
    createdAt: u64,
    // `Option<u64>` at types.rs:48; lib.rs stores and compares a plain `u64`.
    deadline: u64,
    quorum: QuorumType,
    status: ProposalStatus,
    // Set by lib.rs:288 and read at lib.rs:588, but missing from types.rs:40-52.
    totalMembersAtCreation: nat,
    tallyResult: Option<TallyRecord>)

  /** `PrivateDAO`. `members` maps accounts to `true` only, so it is a set. */
  datatype PrivateDao = PrivateDao(
    owner: AccountId,
    name: string,
    mode: MembershipMode,
    members: set<AccountId>,
    memberCount: nat,
    pubkeys: map<AccountId, string>,
    proposals: map<nat, Proposal>,
    nextProposalId: nat,
    votes: map<nat, seq<Vote>>)

  /** The engine's reply as `on_votes_tallied` reads it: plain `u64` counts, where
      types.rs:133-144 declares them `Option<u64>`. */
  datatype TallyResponse = TallyResponse(
    proposalId: u64, yesCount: u64, noCount: u64, totalVotes: u64,
    teeAttestation: string, votesMerkleRoot: string)

  /** A callback's `Result<Option<T>, PromiseError>`. */
  datatype Callback<T> = PromiseError | NoResult | Response(value: T)

  /** The cross-contract requests the contract issues instead of a `Promise`. */
  datatype KeyRequest = KeyRequest(user: AccountId, deposit: nat)
  datatype TallyRequest = TallyRequest(proposalId: nat, votes: seq<Vote>, deposit: nat, payer: AccountId)

  /** One variant per panic. */
  datatype Error =
    | DepositNotAccepted
    | AlreadyInitialized
    | AlreadyMember
    | InvitationOnly
    | InsufficientDeposit
    | NotOwner
    | PublicDaoJoinDirectly
    | NotPreApproved
    | AlreadyCompletedJoin
    | OnlyMembersCreate
    | DeadlineNotInFuture
    | OnlyMembersVote
    | JoinNotCompleted
    | ProposalNotFound
    | ProposalNotActive
    | DeadlinePassed
    | DeadlineNotReached
    | VoteListMissing
    | KeyDerivationFailed
    | TallyFailed
    | ArithmeticOverflow
}

=== FILE: dao_views.dfy ===
/** The contract's view methods (dao-contract/src/lib.rs:647-695). */
module DaoViews {
  import opened Wrappers
  import opened Bytes
  import opened DaoTypes

  datatype DaoInfo = DaoInfo(name: string, owner: AccountId, mode: MembershipMode, memberCount: nat)

  /** `get_dao_info`: every field is the stored one. */
  function GetDaoInfo(d: PrivateDao): (info: DaoInfo)
    ensures info.name == d.name && info.owner == d.owner
    ensures info.mode == d.mode && info.memberCount == d.memberCount
  {
    DaoInfo(d.name, d.owner, d.mode, d.memberCount)
  }

  /** `is_member`: the contract only ever stores `true` in its member map, so an
      entry present means a member and a missing entry reads as `false`. */
  function IsMember(d: PrivateDao, account: AccountId): (b: bool)
    ensures b <==> account in d.members
  {
    account in d.members
  }

  function GetUserPubkey(d: PrivateDao, account: AccountId): (r: Option<string>)
    ensures r.Some? <==> account in d.pubkeys
    ensures r.Some? ==> r.value == d.pubkeys[account]
  {
    if account in d.pubkeys then Some(d.pubkeys[account]) else None
  }

  function GetProposal(d: PrivateDao, id: nat): (r: Option<Proposal>)
    ensures r.Some? <==> id in d.proposals
    ensures r.Some? ==> r.value == d.proposals[id]
  {
    if id in d.proposals then Some(d.proposals[id]) else None
  }

  /** `get_votes`: the stored ballots, or none for an unknown proposal. */
  function GetVotes(d: PrivateDao, id: nat): (r: seq<Vote>)
    ensures id !in d.votes ==> r == []
    ensures id in d.votes ==> r == d.votes[id]
  {
    if id in d.votes then d.votes[id] else []
  }

  /** `get_vote_count`: the length of the list `get_votes` returns. */
  function GetVoteCount(d: PrivateDao, id: nat): (n: nat)
    ensures n == |GetVotes(d, id)|
  {
    if id in d.votes then |d.votes[id]| else 0
  }

  // ---------------------------------------------------------------------------
  // Listing proposals
  // ---------------------------------------------------------------------------

  /** The proposals with ids in [lo, hi), in id order. */
  function ListFrom(proposals: map<nat, Proposal>, lo: nat, hi: nat): (r: seq<Proposal>)
    ensures forall i :: 0 <= i < |r| ==> r[i] in proposals.Values
    decreases hi - lo
  {
    if lo >= hi then []
    else (if lo in proposals then [proposals[lo]] else []) + ListFrom(proposals, lo + 1, hi)
  }

  /** `proposals.values()`: an `UnorderedMap` iterates in insertion order, and the
      contract inserts proposals under increasing ids and never removes one, so
      this is id order. */
  function Listing(d: PrivateDao): seq<Proposal>
  {
    ListFrom(d.proposals, 1, d.nextProposalId)
  }

  /** A `u64` converted with `as usize` on the contract's 32-bit target. */
  function AsUsize32(n: u64): (r: nat)
    ensures r < U32_LIMIT
    ensures n < U32_LIMIT ==> r == n
  {
    n % U32_LIMIT
  }

  /** `get_proposals` as written: `skip(from_index as usize).take(limit as usize)`. */
  function GetProposalsAsWritten(d: PrivateDao, fromIndex: u64, limit: u64): (r: seq<Proposal>)
    ensures |r| == PageLength(|Listing(d)|, AsUsize32(fromIndex), AsUsize32(limit))
    ensures forall i :: 0 <= i < |r| ==>
      AsUsize32(fromIndex) + i < |Listing(d)| && r[i] == Listing(d)[AsUsize32(fromIndex) + i]
  {
    Page(Listing(d), AsUsize32(fromIndex), AsUsize32(limit))
  }

  /** How many items `skip(from).take(limit)` yields from `n`. */
  function PageLength(n: nat, from: nat, limit: nat): nat
  {
    if from >= n then 0 else if limit < n - from then limit else n - from
  }

  /** `skip(from).take(limit)` on a sequence, with unbounded counts. */
  function Page<T>(s: seq<T>, from: nat, limit: nat): (r: seq<T>)
    ensures from >= |s| ==> r == []
    ensures from < |s| ==> r == s[from..if from + limit < |s| then from + limit else |s|]
  {
    if from >= |s| then []
    else if from + limit < |s| then s[from..from + limit]
    else s[from..]
  }

  /** `get_proposals` with the counts kept at full width, as the `u64` parameters
      promise. */
  function GetProposals(d: PrivateDao, fromIndex: u64, limit: u64): (r: seq<Proposal>)
    ensures |r| == PageLength(|Listing(d)|, fromIndex, limit)
    ensures forall i :: 0 <= i < |r| ==> fromIndex + i < |Listing(d)| && r[i] == Listing(d)[fromIndex + i]
  {
    Page(Listing(d), fromIndex, limit)
  }

  /** Consecutive pages tile the listing. */
  lemma PagesConcatenate(d: PrivateDao, a: u64, b: u64)
    requires a + b < U64_LIMIT
    ensures GetProposals(d, 0, a) + GetProposals(d, a, b) == GetProposals(d, 0, a + b)
  {
  }

  /** As written, a start index of 2^32 wraps to 0: a client paging past the end is
      served the first page again, where the full-width view returns nothing. */
  lemma StartIndexWraps(d: PrivateDao)
    requires 1 <= |Listing(d)| <= U32_LIMIT
    ensures GetProposalsAsWritten(d, U32_LIMIT, 1) == [Listing(d)[0]]
    ensures GetProposals(d, U32_LIMIT, 1) == []
  {
  }

  /** As written, a limit of 2^32 wraps to 0 and returns nothing, where the
      full-width view returns the whole listing. */
  lemma LimitWraps(d: PrivateDao)
    requires 1 <= |Listing(d)| <= U32_LIMIT
    ensures GetProposalsAsWritten(d, 0, U32_LIMIT) == []
    ensures GetProposals(d, 0, U32_LIMIT) == Listing(d)
  {
  }
}

=== FILE: hex.dfy ===
/** The `hex` crate as the engine uses it: `hex::encode` writes two lower-case digits
    per byte; `hex::decode` accepts either case and fails on an odd length or on a
    character that is not a hex digit. */
module Hex {
  import opened Wrappers
  import opened Bytes

  /** The lower-case digit `hex::encode` writes for a nibble. */
  function Digit(v: nat): (c: char)
    requires v < 16
    ensures c as int < 0x80
  {
    if v < 10 then ('0' as int + v) as char else ('a' as int + v - 10) as char
  }

  /** The value of a hex digit of either case, or None for any other character. */
  function DigitValue(c: char): (r: Option<nat>)
    ensures r.Some? ==> r.value < 16
  {
    if '0' <= c <= '9' then Some(c as int - '0' as int)
    else if 'a' <= c <= 'f' then Some(c as int - 'a' as int + 10)
    else if 'A' <= c <= 'F' then Some(c as int - 'A' as int + 10)
    else None
  }

  /** The lower-case form of a hex digit; other characters are left alone. */
  function LowerDigit(c: char): char
  {
    if 'A' <= c <= 'F' then (c as int - 'A' as int + 'a' as int) as char else c
  }

  function Lower(s: string): (r: string)
    ensures |r| == |s|
    ensures forall i :: 0 <= i < |s| ==> r[i] == LowerDigit(s[i])
  {
    if |s| == 0 then "" else [LowerDigit(s[0])] + Lower(s[1..])
  }

  /** `hex::encode`. */
  function Encode(bs: seq<uint8>): (s: string)
    ensures |s| == 2 * |bs|
    ensures IsAscii(s)
  {
    if |bs| == 0 then ""
    else [Digit(bs[0] as nat / 16), Digit(bs[0] as nat % 16)] + Encode(bs[1..])
  }

  /** `hex::decode`: None on odd length or on a non-digit character. */
  function Decode(s: string): (r: Option<seq<uint8>>)
    ensures r.Some? ==> 2 * |r.value| == |s|
    ensures r.None? <==> |s| % 2 == 1 || exists i :: 0 <= i < |s| && DigitValue(s[i]).None?
  {
    if |s| == 0 then Some([])
    else if |s| == 1 then None
    else
      var hi, lo, rest := DigitValue(s[0]), DigitValue(s[1]), Decode(s[2..]);
      if hi.None? || lo.None? || rest.None? then
        assert rest.None? ==> forall i :: 0 <= i < |s| - 2 ==> s[2..][i] == s[i + 2];
        None
      else
        assert forall i :: 2 <= i < |s| ==> s[i] == s[2..][i - 2];
        Some([(hi.value * 16 + lo.value) as uint8] + rest.value)
  }

  /** Decoding undoes encoding. */
  lemma {:induction false} DecodeEncode(bs: seq<uint8>)
    ensures Decode(Encode(bs)) == Some(bs)
  {
    if |bs| > 0 {
      var s, hi, lo := Encode(bs), bs[0] as nat / 16, bs[0] as nat % 16;
      assert s == [Digit(hi), Digit(lo)] + Encode(bs[1..]);
      assert s[2..] == Encode(bs[1..]);
      DecodeEncode(bs[1..]);
      DigitRoundTrip(hi);
      DigitRoundTrip(lo);
      assert (hi * 16 + lo) as uint8 == bs[0];
      assert bs == [bs[0]] + bs[1..];
    }
  }

  lemma DigitRoundTrip(v: nat)
    requires v < 16
    ensures DigitValue(Digit(v)) == Some(v)
  {
  }

  /** Encoding is injective. */
  lemma EncodeInjective(a: seq<uint8>, b: seq<uint8>)
    requires Encode(a) == Encode(b)
    ensures a == b
  {
    DecodeEncode(a);
    DecodeEncode(b);
  }

  /** Whatever decodes re-encodes to its lower-case form: decoding loses only case. */
  lemma {:induction false} EncodeDecode(s: string)
    requires Decode(s).Some?
    ensures Encode(Decode(s).value) == Lower(s)
  {
    if |s| > 0 {
      var hi, lo := DigitValue(s[0]).value, DigitValue(s[1]).value;
      var rest := Decode(s[2..]).value;
      var b := (hi * 16 + lo) as uint8;
      assert Decode(s).value == [b] + rest;
      EncodeDecode(s[2..]);
      assert b as nat / 16 == hi && b as nat % 16 == lo;
      DigitOfValue(s[0]);
      DigitOfValue(s[1]);
      assert ([b] + rest)[1..] == rest;
      assert Encode([b] + rest) == [Digit(hi), Digit(lo)] + Encode(rest);
      assert Lower(s) == [LowerDigit(s[0]), LowerDigit(s[1])] + Lower(s[2..]);
    }
  }

  /** The digit written for a character's value is its lower-case form. */
  lemma DigitOfValue(c: char)
    requires DigitValue(c).Some?
    ensures Digit(DigitValue(c).value) == LowerDigit(c)
  {
  }
}

=== FILE: merkle.dfy ===
/** `build_merkle_tree_with_proofs` (src/tally.rs:255-340): a binary SHA-256 tree over
    every ballot, in submission order, with one sibling-path proof per ballot.
    Nodes are hex strings; a parent hashes the UTF-8 bytes of its children's hex
    strings, not their raw digests. */
module Merkle {
  import opened Bytes
  import Hex
  import opened Crypto
  import opened Ballots

  type Hasher = seq<uint8> -> Digest

  /** A leaf: hex of SHA-256 over the ballot's preimage. */
  function LeafHash(h: Hasher, b: Ballot): (node: string)
    ensures IsNode(node)
  {
    Hex.Encode(h(Preimage(b)))
  }

  /** A parent: hex of SHA-256 over `left.as_bytes() ‖ right.as_bytes()`. */
  function Parent(h: Hasher, left: string, right: string): (node: string)
    ensures IsNode(node)
  {
    Hex.Encode(h(Utf8(left) + Utf8(right)))
  }

  /** Every node of the tree is the 64-character hex text of a digest. */
  predicate IsNode(s: string)
  {
    |s| == 64 && IsAscii(s)
  }

  predicate AllNodes(level: seq<string>)
  {
    forall i :: 0 <= i < |level| ==> IsNode(level[i])
  }

  function Leaves(h: Hasher, ballots: seq<Ballot>): (leaves: seq<string>)
    ensures |leaves| == |ballots|
    ensures forall i :: 0 <= i < |ballots| ==> leaves[i] == LeafHash(h, ballots[i])
  {
    seq(|ballots|, i requires 0 <= i < |ballots| => LeafHash(h, ballots[i]))
  }

  /** One pass of the level loop (src/tally.rs:289-304): nodes are paired left to
      right; on an odd-sized level the last node is paired with itself. */
  function NextLevel(h: Hasher, level: seq<string>): (next: seq<string>)
    ensures |next| == (|level| + 1) / 2
    ensures forall k :: 0 <= k < |next| ==>
      next[k] == Parent(h, level[2 * k], if 2 * k + 1 < |level| then level[2 * k + 1] else level[2 * k])
    ensures AllNodes(next)
  {
    seq((|level| + 1) / 2, k requires 0 <= k < (|level| + 1) / 2 =>
      Parent(h, level[2 * k], if 2 * k + 1 < |level| then level[2 * k + 1] else level[2 * k]))
  }

  /** `all_levels`: the leaf level first, each further level built from the one
      below, until a level of one node remains. */
  function Levels(h: Hasher, level: seq<string>): (levels: seq<seq<string>>)
    requires |level| >= 1
    ensures IsTower(h, levels) && levels[0] == level
    decreases |level|
  {
    if |level| == 1 then [level] else [level] + Levels(h, NextLevel(h, level))
  }

  /** A list of levels where each level is built from the previous one and the
      last has exactly one node, the root. */
  ghost predicate IsTower(h: Hasher, levels: seq<seq<string>>)
  {
    && |levels| >= 1
    && |levels[|levels| - 1]| == 1
    && forall k :: 0 <= k < |levels| - 1 ==> |levels[k]| >= 1 && levels[k + 1] == NextLevel(h, levels[k])
  }

  /** The root: the empty string when there are no ballots. */
  function Root(h: Hasher, leaves: seq<string>): string
  {
    if |leaves| == 0 then "" else var levels := Levels(h, leaves); levels[|levels| - 1][0]
  }

  /** The sibling recorded at one level (src/tally.rs:319-330): the neighbour of
      the pair, or the node itself when it is the unpaired last node. */
  function Sibling(level: seq<string>, index: nat): (s: string)
    requires index < |level|
    ensures index % 2 == 0 && index + 1 == |level| ==> s == level[index]
    ensures index % 2 == 0 && index + 1 < |level| ==> s == level[index + 1]
    ensures index % 2 == 1 ==> s == level[index - 1]
  {
    var sibling := if index % 2 == 0 then index + 1 else index - 1;
    if sibling < |level| then level[sibling] else level[index]
  }

  /** The proof path of the node at `index` of `levels[0]` (src/tally.rs:313-334):
      one sibling per level below the root, the index halving at each level. */
  function ProofPath(h: Hasher, levels: seq<seq<string>>, index: nat): (path: seq<string>)
    requires IsTower(h, levels) && index < |levels[0]|
    ensures |path| == |levels| - 1
    decreases |levels|
  {
    if |levels| == 1 then []
    else
      assert IsTower(h, levels[1..]);
      [Sibling(levels[0], index)] + ProofPath(h, levels[1..], index / 2)
  }

  /** One step of verification: the current node is the left child at an even
      index and the right child at an odd one. */
  function Combine(h: Hasher, node: string, index: nat, sibling: string): string
  {
    if index % 2 == 0 then Parent(h, node, sibling) else Parent(h, sibling, node)
  }

  /** The verifier a ballot submitter runs: fold the path upward from the leaf. */
  function RecomputeRoot(h: Hasher, node: string, index: nat, path: seq<string>): string
    decreases |path|
  {
    if |path| == 0 then node else RecomputeRoot(h, Combine(h, node, index, path[0]), index / 2, path[1..])
  }

  predicate Verify(h: Hasher, leaf: string, index: nat, path: seq<string>, root: string)
  {
    RecomputeRoot(h, leaf, index, path) == root
  }

  /** Combining a node with its recorded sibling yields its parent on the next level. */
  lemma CombineWithSibling(h: Hasher, level: seq<string>, index: nat)
    requires index < |level|
    ensures Combine(h, level[index], index, Sibling(level, index)) == NextLevel(h, level)[index / 2]
  {
    var k := index / 2;
    assert index == 2 * k || index == 2 * k + 1;
    NextLevelAt(h, level, k);
    if index == 2 * k {
      EvenSibling(level, index, k);
    } else {
      OddSibling(level, index, k);
    }
  }

  lemma NextLevelAt(h: Hasher, level: seq<string>, k: nat)
    requires 2 * k < |level|
    ensures k < |NextLevel(h, level)|
    ensures NextLevel(h, level)[k] ==
      Parent(h, level[2 * k], if 2 * k + 1 < |level| then level[2 * k + 1] else level[2 * k])
  {
  }

  lemma EvenSibling(level: seq<string>, index: nat, k: nat)
    requires index < |level| && index == 2 * k
    ensures Sibling(level, index) == if 2 * k + 1 < |level| then level[2 * k + 1] else level[2 * k]
  {
  }

  lemma OddSibling(level: seq<string>, index: nat, k: nat)
    requires index < |level| && index == 2 * k + 1
    ensures Sibling(level, index) == level[2 * k]
  {
  }

  /** The proof path of any node recomputes the root of its tower. */
  lemma {:induction false} ProofPathRecomputesRoot(h: Hasher, levels: seq<seq<string>>, index: nat)
    requires IsTower(h, levels) && index < |levels[0]|
    ensures RecomputeRoot(h, levels[0][index], index, ProofPath(h, levels, index)) == levels[|levels| - 1][0]
    decreases |levels|
  {
    if |levels| > 1 {
      var rest := levels[1..];
      assert IsTower(h, rest);
      CombineWithSibling(h, levels[0], index);
      ProofPathRecomputesRoot(h, rest, index / 2);
    }
  }

  lemma AllProofPathsRecomputeRoot(h: Hasher, levels: seq<seq<string>>)
    requires IsTower(h, levels)
    ensures forall i :: 0 <= i < |levels[0]| ==>
      RecomputeRoot(h, levels[0][i], i, ProofPath(h, levels, i)) == levels[|levels| - 1][0]
  {
    forall i | 0 <= i < |levels[0]|
      ensures RecomputeRoot(h, levels[0][i], i, ProofPath(h, levels, i)) == levels[|levels| - 1][0]
    {
      ProofPathRecomputesRoot(h, levels, i);
    }
  }

  /** A proof for one ballot (`MerkleProof`, src/tally.rs:22-37). */
  datatype MerkleProof = MerkleProof(
    voter: string, voteIndex: nat, voteHash: string, proofPath: seq<string>, timestamp: u64)

  /** `build_merkle_tree_with_proofs`: the root and one proof per ballot. */
  function BuildMerkleTreeWithProofs(h: Hasher, ballots: seq<Ballot>): (r: (string, seq<MerkleProof>))
    ensures |ballots| == 0 ==> r == ("", [])
    ensures r.0 == Root(h, Leaves(h, ballots))
    ensures |r.1| == |ballots|
    ensures forall i :: 0 <= i < |ballots| ==>
      && r.1[i].voter == ballots[i].voter
      && r.1[i].voteIndex == i
      && r.1[i].voteHash == LeafHash(h, ballots[i])
      && r.1[i].timestamp == ballots[i].timestamp
    ensures |ballots| == 1 ==> r.0 == LeafHash(h, ballots[0]) && r.1[0].proofPath == []
    ensures |ballots| > 0 ==> forall i :: 0 <= i < |ballots| ==>
      |r.1[i].proofPath| == |Levels(h, Leaves(h, ballots))| - 1
    ensures forall i :: 0 <= i < |ballots| ==> Verify(h, r.1[i].voteHash, i, r.1[i].proofPath, r.0)
  {
    if |ballots| == 0 then ("", [])
    else
      var levels := Levels(h, Leaves(h, ballots));
      (levels[|levels| - 1][0], Proofs(h, ballots, levels))
  }

  /** The proofs of every ballot against one tower built over their leaves. */
  function Proofs(h: Hasher, ballots: seq<Ballot>, levels: seq<seq<string>>): (proofs: seq<MerkleProof>)
    requires IsTower(h, levels) && levels[0] == Leaves(h, ballots)
    ensures |proofs| == |ballots|
    ensures forall i :: 0 <= i < |ballots| ==>
      && proofs[i].voter == ballots[i].voter
      && proofs[i].voteIndex == i
      && proofs[i].voteHash == LeafHash(h, ballots[i])
      && proofs[i].timestamp == ballots[i].timestamp
      && |proofs[i].proofPath| == |levels| - 1
      && Verify(h, proofs[i].voteHash, i, proofs[i].proofPath, levels[|levels| - 1][0])
  {
    AllProofPathsRecomputeRoot(h, levels);
    seq(|ballots|, i requires 0 <= i < |ballots| =>
      MerkleProof(ballots[i].voter, i, levels[0][i], ProofPath(h, levels, i), ballots[i].timestamp))
  }

  // ---------------------------------------------------------------------------
  // Binding: the root commits to the ballots unless SHA-256 has a collision
  // ---------------------------------------------------------------------------

  /** Two different inputs on which `h` agrees. */
  ghost predicate HasCollision(h: Hasher)
  {
    exists x, y :: x != y && h(x) == h(y)
  }

  /** Equal parents have equal children, or `h` has a collision. The children's hex
      strings have a fixed length, so the concatenation splits unambiguously. */
  lemma ParentBinding(h: Hasher, l: string, r: string, l2: string, r2: string)
    requires IsNode(l) && IsNode(l2)
    requires Parent(h, l, r) == Parent(h, l2, r2)
    ensures (l == l2 && r == r2) || HasCollision(h)
  {
    var a, b := Utf8(l) + Utf8(r), Utf8(l2) + Utf8(r2);
    Hex.EncodeInjective(h(a), h(b));
    if a == b {
      Utf8Ascii(l);
      Utf8Ascii(l2);
      assert Utf8(l) == a[..64] == b[..64] == Utf8(l2);
      assert Utf8(r) == a[64..] == b[64..] == Utf8(r2);
      Utf8Injective(l, l2);
      Utf8Injective(r, r2);
    } else {
      assert a != b && h(a) == h(b);
    }
  }

  /** Equal leaves have equal preimages, or `h` has a collision. */
  lemma LeafBinding(h: Hasher, b: Ballot, b2: Ballot)
    requires LeafHash(h, b) == LeafHash(h, b2)
    ensures Preimage(b) == Preimage(b2) || HasCollision(h)
  {
    Hex.EncodeInjective(h(Preimage(b)), h(Preimage(b2)));
  }

  /** The k-th parent determines the k-th pair of children. */
  lemma PairBinding(h: Hasher, level: seq<string>, level2: seq<string>, k: nat)
    requires |level| == |level2| && AllNodes(level) && AllNodes(level2)
    requires 2 * k < |level|
    requires NextLevel(h, level)[k] == NextLevel(h, level2)[k]
    ensures (level[2 * k] == level2[2 * k]
             && (2 * k + 1 < |level| ==> level[2 * k + 1] == level2[2 * k + 1]))
            || HasCollision(h)
  {
    var r := if 2 * k + 1 < |level| then level[2 * k + 1] else level[2 * k];
    var r2 := if 2 * k + 1 < |level2| then level2[2 * k + 1] else level2[2 * k];
    assert IsNode(level[2 * k]) && IsNode(level2[2 * k]);
    ParentBinding(h, level[2 * k], r, level2[2 * k], r2);
  }

  /** A level of a given size is determined by the level built from it. */
  lemma NextLevelBinding(h: Hasher, level: seq<string>, level2: seq<string>)
    requires |level| == |level2| && AllNodes(level) && AllNodes(level2)
    requires NextLevel(h, level) == NextLevel(h, level2)
    ensures level == level2 || HasCollision(h)
  {
    if level != level2 {
      var i :| 0 <= i < |level| && level[i] != level2[i];
      var k := i / 2;
      assert i == 2 * k || i == 2 * k + 1;
      PairBinding(h, level, level2, k);
      assert HasCollision(h);
    }
  }

  /** Among leaf levels of one size, the root determines the leaves, or `h` has a
      collision. */
  lemma {:induction false} RootBinding(h: Hasher, leaves: seq<string>, leaves2: seq<string>)
    requires |leaves| == |leaves2| && AllNodes(leaves) && AllNodes(leaves2)
    requires Root(h, leaves) == Root(h, leaves2)
    ensures leaves == leaves2 || HasCollision(h)
    decreases |leaves|
  {
    if |leaves| > 1 {
      var next, next2 := NextLevel(h, leaves), NextLevel(h, leaves2);
      RootOfNextLevel(h, leaves);
      RootOfNextLevel(h, leaves2);
      RootBinding(h, next, next2);
      if next == next2 {
        NextLevelBinding(h, leaves, leaves2);
      }
    }
  }

  /** Above the leaves, the root is the root of the next level. */
  lemma RootOfNextLevel(h: Hasher, leaves: seq<string>)
    requires |leaves| > 1
    ensures Root(h, leaves) == Root(h, NextLevel(h, leaves))
  {
    var levels := Levels(h, leaves);
    assert levels == [leaves] + Levels(h, NextLevel(h, leaves));
  }

  /** Among ballot lists of one length, the root determines every ballot's preimage,
      or `h` has a collision. */
  lemma RootBindsBallots(h: Hasher, ballots: seq<Ballot>, ballots2: seq<Ballot>)
    requires |ballots| == |ballots2|
    requires Root(h, Leaves(h, ballots)) == Root(h, Leaves(h, ballots2))
    ensures (forall i :: 0 <= i < |ballots| ==> Preimage(ballots[i]) == Preimage(ballots2[i]))
            || HasCollision(h)
  {
    var leaves, leaves2 := Leaves(h, ballots), Leaves(h, ballots2);
    RootBinding(h, leaves, leaves2);
    if leaves == leaves2 {
      forall i | 0 <= i < |ballots|
        ensures Preimage(ballots[i]) == Preimage(ballots2[i]) || HasCollision(h)
      {
        LeafBinding(h, ballots[i], ballots2[i]);
      }
    }
  }

  /** Tamper evidence: replacing one ballot's ciphertext changes the root, unless
      `h` has a collision. */
  lemma TamperChangesRoot(h: Hasher, ballots: seq<Ballot>, i: nat, ciphertext: string)
    requires i < |ballots| && ciphertext != ballots[i].ciphertext
    ensures Root(h, Leaves(h, ballots)) != Root(h, Leaves(h, ballots[i := ballots[i].(ciphertext := ciphertext)]))
            || HasCollision(h)
  {
    var tampered := ballots[i := ballots[i].(ciphertext := ciphertext)];
    if Root(h, Leaves(h, ballots)) == Root(h, Leaves(h, tampered)) {
      RootBindsBallots(h, ballots, tampered);
      if !HasCollision(h) {
        PreimageDeterminesCiphertext(ballots[i], tampered[i]);
      }
    }
  }

  /** Order sensitivity: exchanging two ballots with different preimages changes the
      root, unless `h` has a collision. */
  lemma SwapChangesRoot(h: Hasher, ballots: seq<Ballot>, i: nat, j: nat)
    requires i < |ballots| && j < |ballots| && Preimage(ballots[i]) != Preimage(ballots[j])
    ensures Root(h, Leaves(h, ballots)) != Root(h, Leaves(h, ballots[i := ballots[j]][j := ballots[i]]))
            || HasCollision(h)
  {
    var swapped := ballots[i := ballots[j]][j := ballots[i]];
    if Root(h, Leaves(h, ballots)) == Root(h, Leaves(h, swapped)) {
      RootBindsBallots(h, ballots, swapped);
      assert swapped[j] == ballots[i];
    }
  }
}

=== FILE: quorum.dfy ===
/** Quorum policies: the contract's `QuorumType`, the JSON form in which it travels,
    and the engine's `check_quorum` (src/tally.rs:361-383), which only knows the
    `Absolute` variant. */
module Quorum {
  import opened Wrappers
  import opened Bytes

  /** A JSON value as `serde_json::Value` holds it; numbers are integers only. */
  datatype Json =
    | Null
    | Bool(b: bool)
    | Number(n: int)
    | Str(s: string)
    | Array(items: seq<Json>)
    | Object(fields: map<string, Json>)

  /** The contract's quorum policy, as dao-contract/src/lib.rs:582-598 matches it.
      (dao-contract/src/types.rs:21-24 declares only `Absolute`; the model follows
      the contract's own use of three variants.) */
  datatype QuorumType =
    | Absolute(minVotes: u64)
    | Percentage(minPercentage: u64)
    | PercentageOfVoters(minYesPercentage: u64)

  /** serde's externally tagged encoding of a `QuorumType`. */
  function ToJson(q: QuorumType): Json
  {
    match q
    case Absolute(n) => Object(map["Absolute" := Object(map["min_votes" := Number(n)])])
    case Percentage(n) => Object(map["Percentage" := Object(map["min_percentage" := Number(n)])])
    case PercentageOfVoters(n) =>
      Object(map["PercentageOfVoters" := Object(map["min_yes_percentage" := Number(n)])])
  }

  const InvalidQuorum := "Invalid quorum format"

  /** The `min_votes` field of a struct variant's content. Deserialising from a
      `serde_json::Value`, a struct variant's content must be an object holding
      "min_votes" (other keys are ignored); any other shape is rejected. */
  function MinVotesField(content: Json): (r: Option<int>)
    ensures r.Some? <==>
      content.Object? && "min_votes" in content.fields && content.fields["min_votes"].Number?
    ensures r.Some? ==> r.value == content.fields["min_votes"].n
  {
    if content.Object? && "min_votes" in content.fields && content.fields["min_votes"].Number? then
      Some(content.fields["min_votes"].n)
    else None
  }

  /** `serde_json::from_value::<QuorumType>` for the engine's one-variant enum: an
      object whose single key is "Absolute", whose content carries a `min_votes`
      integer in the u64 range. */
  function ParseQuorum(j: Json): (r: Result<u64, string>)
    ensures r.Success? <==>
      && j.Object? && |j.fields| == 1 && "Absolute" in j.fields
      && MinVotesField(j.fields["Absolute"]).Some?
      && 0 <= MinVotesField(j.fields["Absolute"]).value < U64_LIMIT
    ensures r.Success? ==> r.value == MinVotesField(j.fields["Absolute"]).value
    ensures r.Failure? ==> r.error == InvalidQuorum
  {
    if j.Object? && |j.fields| == 1 && "Absolute" in j.fields then
      match MinVotesField(j.fields["Absolute"])
      case Some(n) => if 0 <= n < U64_LIMIT then Success(n) else Failure(InvalidQuorum)
      case None => Failure(InvalidQuorum)
    else Failure(InvalidQuorum)
  }

  /** `check_quorum`: an unparseable policy is an error; otherwise the quorum is
      met iff the total reaches `min_votes`. */
  function CheckQuorum(j: Json, totalVotes: u32): (r: Result<bool, string>)
    ensures r.Failure? <==> ParseQuorum(j).Failure?
    ensures r.Success? ==> (r.value <==> totalVotes >= ParseQuorum(j).value)
  {
    match ParseQuorum(j)
    case Failure(e) => Failure(e)
    case Success(minVotes) => Success(totalVotes >= minVotes)
  }

  /** The engine accepts exactly the `Absolute` policies the contract can send,
      and reads back their threshold; a `Percentage` or `PercentageOfVoters`
      policy makes every tally fail. */
  lemma ParseContractQuorum(q: QuorumType)
    ensures ParseQuorum(ToJson(q)).Success? <==> q.Absolute?
    ensures q.Absolute? ==> ParseQuorum(ToJson(q)) == Success(q.minVotes)
  {
    match q
    case Absolute(n) =>
    case Percentage(n) =>
      assert "Absolute" !in ToJson(q).fields;
    case PercentageOfVoters(n) =>
      assert "Absolute" !in ToJson(q).fields;
  }
}

=== FILE: tally.dfy ===
/** `tally_votes` (src/tally.rs:115-229): aggregate the ballots, check the quorum,
    commit to the ballots with a Merkle tree, attest, and gate disclosure of the
    counts on the quorum. */
module Tally {
  import opened Wrappers
  import opened Bytes
  import opened Crypto
  import opened Ballots
  import opened Merkle
  import opened Aggregate
  import opened Quorum
  import opened Attestation

  /** The engine's `TallyResult` (src/tally.rs:41-65). */
  datatype TallyResult = TallyResult(
    proposalId: u64,
    yesCount: Option<u32>,
    noCount: Option<u32>,
    totalVotes: u32,
    teeAttestation: string,
    votesMerkleRoot: string,
    merkleProofs: seq<MerkleProof>)

  /** The `u32` counters the counting loop leaves behind (src/tally.rs:183-197). */
  function YesCount(k: Keyring, ballots: seq<Ballot>): u32
  {
    Wrap32(CountChoice(Fold(k, ballots), Yes))
  }

  function NoCount(k: Keyring, ballots: seq<Ballot>): u32
  {
    Wrap32(CountChoice(Fold(k, ballots), No))
  }

  /** The counters are the sizes of the reference's supporter sets, and their sum
      is the number of distinct voters with a real vote (each modulo 2^32). */
  lemma CountersMatchReference(k: Keyring, ballots: seq<Ballot>)
    ensures YesCount(k, ballots) == Wrap32(|Supporters(k, ballots, Yes)|)
    ensures NoCount(k, ballots) == Wrap32(|Supporters(k, ballots, No)|)
    ensures WrappingAdd32(YesCount(k, ballots), NoCount(k, ballots)) == Wrap32(|RealVoters(k, ballots)|)
  {
    CountsMatchReference(k, ballots);
    Wrap32Add(|Supporters(k, ballots, Yes)|, |Supporters(k, ballots, No)|);
  }

  /** The result record built once the counts and the quorum verdict are known
      (src/tally.rs:203-228). */
  function Publish(h: Hasher, pid: u64, ballots: seq<Ballot>, yes: u32, no: u32, met: bool): (t: TallyResult)
    ensures t.proposalId == pid
    ensures t.yesCount.Some? <==> met
    ensures met ==> t.yesCount == Some(yes) && t.noCount == Some(no) && t.totalVotes == WrappingAdd32(yes, no)
    ensures !met ==> t.noCount.None? && t.totalVotes == 0
    ensures t.votesMerkleRoot == Root(h, Leaves(h, ballots))
    ensures |t.merkleProofs| == |ballots|
    ensures forall i :: 0 <= i < |ballots| ==>
      Verify(h, t.merkleProofs[i].voteHash, i, t.merkleProofs[i].proofPath, t.votesMerkleRoot)
    ensures t.teeAttestation == GenerateTeeAttestation(h, pid, t.votesMerkleRoot, yes, no)
  {
    var tree := BuildMerkleTreeWithProofs(h, ballots);
    TallyResult(
      pid,
      if met then Some(yes) else None,
      if met then Some(no) else None,
      if met then WrappingAdd32(yes, no) else 0,
      GenerateTeeAttestation(h, pid, tree.0, yes, no),
      tree.0,
      tree.1)
  }

  /** What a successful tally of `ballots` under an `Absolute` quorum of `minVotes`
      reports, stated against the reference aggregation: the counts are disclosed
      iff the number of distinct real voters reaches the quorum, and the
      attestation binds the true counts whether or not they are disclosed. */
  ghost predicate Reports(k: Keyring, pid: u64, ballots: seq<Ballot>, minVotes: u64, t: TallyResult)
  {
    var h := k.prims.sha256;
    var yes, no := Wrap32(|Supporters(k, ballots, Yes)|), Wrap32(|Supporters(k, ballots, No)|);
    && t.proposalId == pid
    && (t.yesCount.Some? <==> Wrap32(|RealVoters(k, ballots)|) >= minVotes)
    && (t.yesCount.Some? ==>
          t.yesCount == Some(yes) && t.noCount == Some(no) && t.totalVotes == Wrap32(|RealVoters(k, ballots)|))
    && (t.yesCount.None? ==> t.noCount.None? && t.totalVotes == 0)
    && (t.votesMerkleRoot, t.merkleProofs) == BuildMerkleTreeWithProofs(h, ballots)
    && t.votesMerkleRoot == Root(h, Leaves(h, ballots))
    && |t.merkleProofs| == |ballots|
    && (forall i :: 0 <= i < |ballots| ==>
          Verify(h, t.merkleProofs[i].voteHash, i, t.merkleProofs[i].proofPath, t.votesMerkleRoot))
    && t.teeAttestation == GenerateTeeAttestation(h, pid, t.votesMerkleRoot, yes, no)
  }

  lemma PublishReports(k: Keyring, pid: u64, ballots: seq<Ballot>, minVotes: u64, met: bool)
    requires met <==> WrappingAdd32(YesCount(k, ballots), NoCount(k, ballots)) >= minVotes
    ensures Reports(k, pid, ballots, minVotes,
                    Publish(k.prims.sha256, pid, ballots, YesCount(k, ballots), NoCount(k, ballots), met))
  {
    CountersMatchReference(k, ballots);
  }

  /** `tally_votes`, as written. */
  function TallyVotes(k: Keyring, pid: u64, ballots: seq<Ballot>, quorum: Json): (r: Result<TallyResult, string>)
    ensures r.Failure? <==> ParseQuorum(quorum).Failure?
    ensures r.Success? ==> Reports(k, pid, ballots, ParseQuorum(quorum).value, r.value)
  {
    var yes, no := YesCount(k, ballots), NoCount(k, ballots);
    match CheckQuorum(quorum, WrappingAdd32(yes, no))
    case Failure(e) => Failure(e)
    case Success(met) =>
      PublishReports(k, pid, ballots, ParseQuorum(quorum).value, met);
      Success(Publish(k.prims.sha256, pid, ballots, yes, no, met))
  }

  /** A disclosed count, or 0 for a hidden one. */
  function Shown(c: Option<u32>): u32
  {
    if c.Some? then c.value else 0
  }

  /** `tally_votes` with the attestation gated like the counts: a hidden result binds
      `(0, 0)`. */
  function TallyVotesGated(k: Keyring, pid: u64, ballots: seq<Ballot>, quorum: Json): (r: Result<TallyResult, string>)
    ensures r.Failure? <==> TallyVotes(k, pid, ballots, quorum).Failure?
    ensures r.Success? ==>
      r.value == TallyVotes(k, pid, ballots, quorum).value.(teeAttestation := r.value.teeAttestation)
    ensures r.Success? ==>
      r.value.teeAttestation == GenerateTeeAttestation(k.prims.sha256, pid, r.value.votesMerkleRoot,
                                  Shown(r.value.yesCount), Shown(r.value.noCount))
  {
    match TallyVotes(k, pid, ballots, quorum)
    case Failure(e) => Failure(e)
    case Success(t) =>
      Success(t.(teeAttestation := GenerateTeeAttestation(k.prims.sha256, pid, t.votesMerkleRoot,
                                                           Shown(t.yesCount), Shown(t.noCount))))
  }

  // ---------------------------------------------------------------------------
  // Properties of a tally
  // ---------------------------------------------------------------------------

  /** The contract can store three kinds of quorum, but the engine parses only
      `Absolute`: a proposal with a `Percentage` or `PercentageOfVoters` quorum can
      never be tallied. */
  lemma OnlyAbsoluteQuorumsTally(k: Keyring, pid: u64, ballots: seq<Ballot>, q: QuorumType)
    ensures TallyVotes(k, pid, ballots, ToJson(q)).Success? <==> q.Absolute?
  {
    ParseContractQuorum(q);
  }

  /** A ballot that is not a real vote (bad hex, undecryptable, or a dummy) changes
      no count, wherever the voter stands. */
  lemma NonVoteKeepsCounts(k: Keyring, ballots: seq<Ballot>, b: Ballot)
    requires !Classify(k, b).Real?
    ensures YesCount(k, ballots + [b]) == YesCount(k, ballots)
    ensures NoCount(k, ballots + [b]) == NoCount(k, ballots)
  {
    assert (ballots + [b])[..|ballots|] == ballots;
  }

  /** The disclosed fields in terms of the two counters. */
  lemma DisclosedFields(k: Keyring, pid: u64, ballots: seq<Ballot>, quorum: Json)
    requires ParseQuorum(quorum).Success?
    ensures
      var t := TallyVotes(k, pid, ballots, quorum).value;
      var yes, no := YesCount(k, ballots), NoCount(k, ballots);
      var met := WrappingAdd32(yes, no) >= ParseQuorum(quorum).value;
      && t.yesCount == (if met then Some(yes) else None)
      && t.noCount == (if met then Some(no) else None)
      && t.totalVotes == (if met then WrappingAdd32(yes, no) else 0)
  {
  }

  lemma NonVoteKeepsTally(k: Keyring, pid: u64, ballots: seq<Ballot>, b: Ballot, quorum: Json)
    requires !Classify(k, b).Real?
    requires ParseQuorum(quorum).Success?
    ensures
      var before, after := TallyVotes(k, pid, ballots, quorum).value, TallyVotes(k, pid, ballots + [b], quorum).value;
      after.yesCount == before.yesCount && after.noCount == before.noCount && after.totalVotes == before.totalVotes
  {
    NonVoteKeepsCounts(k, ballots, b);
    DisclosedFields(k, pid, ballots, quorum);
    DisclosedFields(k, pid, ballots + [b], quorum);
  }

  lemma ExampleVoters(k: Keyring, ballots: seq<Ballot>)
    requires |ballots| == 3
    requires ballots[0].voter == ballots[1].voter == "alice.near" && ballots[2].voter == "bob.near"
    requires forall i :: 0 <= i < 3 ==> Classify(k, ballots[i]).Real?
    ensures |RealVoters(k, ballots)| == 2
  {
    var voters := RealVoters(k, ballots);
    forall v | v in voters
      ensures v == "alice.near" || v == "bob.near"
    {
      var j :| 0 <= j < 3 && Classify(k, ballots[j]).Real? && ballots[j].voter == v;
    }
    assert "alice.near" in voters by { assert Classify(k, ballots[0]).Real?; }
    assert "bob.near" in voters by { assert Classify(k, ballots[2]).Real?; }
    assert voters == {"alice.near", "bob.near"};
    assert "alice.near"[0] != "bob.near"[0];
  }

  /** The example of src/tally.rs:104-114: two ballots from alice and one from bob,
      all real, count two voters. */
  lemma RevotingCountsVoterOnce(k: Keyring, alice1: Ballot, alice2: Ballot, bob: Ballot)
    requires alice1.voter == alice2.voter == "alice.near" && bob.voter == "bob.near"
    requires Classify(k, alice1).Real? && Classify(k, alice2).Real? && Classify(k, bob).Real?
    ensures TallyVotes(k, 42, [alice1, alice2, bob], ToJson(Absolute(2))).value.totalVotes == 2
  {
    var ballots := [alice1, alice2, bob];
    ExampleVoters(k, ballots);
    CountersMatchReference(k, ballots);
    ParseContractQuorum(Absolute(2));
    DisclosedFields(k, 42, ballots, ToJson(Absolute(2)));
  }

  // ---------------------------------------------------------------------------
  // Disclosure gate and the attestation
  // ---------------------------------------------------------------------------

  /** As written, a hidden result still determines its counts: any candidate pair
      that reproduces the published attestation from the published root is the
      true pair, unless SHA-256 has a collision. Trying the few possible pairs
      therefore recovers what the gate hides. */
  lemma HiddenCountsRecoverable(k: Keyring, pid: u64, ballots: seq<Ballot>, quorum: Json, yes: u32, no: u32)
    requires TallyVotes(k, pid, ballots, quorum).Success?
    requires TallyVotes(k, pid, ballots, quorum).value.yesCount.None?
    requires
      var t := TallyVotes(k, pid, ballots, quorum).value;
      GenerateTeeAttestation(k.prims.sha256, pid, t.votesMerkleRoot, yes, no) == t.teeAttestation
    ensures (yes == Wrap32(|Supporters(k, ballots, Yes)|) && no == Wrap32(|Supporters(k, ballots, No)|))
            || HasCollision(k.prims.sha256)
  {
    var t := TallyVotes(k, pid, ballots, quorum).value;
    AttestationBinding(k.prims.sha256, pid, t.votesMerkleRoot, yes, no,
                       pid, t.votesMerkleRoot, Wrap32(|Supporters(k, ballots, Yes)|), Wrap32(|Supporters(k, ballots, No)|));
  }

  /** The counterexample: one ballot that decrypts to "yes" under one key and to
      "no" under another, against a quorum of two. Both tallies hide their counts,
      yet as written the two results differ (unless SHA-256 has a collision),
      while the gated results are identical. */
  lemma OneHiddenBallotLeaks(k1: Keyring, k2: Keyring, pid: u64, b: Ballot)
    requires k1.prims.sha256 == k2.prims.sha256
    requires DecryptsTo(k1, b, "yes") && DecryptsTo(k2, b, "no")
    ensures TallyVotes(k1, pid, [b], ToJson(Absolute(2))).value.yesCount.None?
    ensures TallyVotes(k2, pid, [b], ToJson(Absolute(2))).value.yesCount.None?
    ensures TallyVotes(k1, pid, [b], ToJson(Absolute(2))) != TallyVotes(k2, pid, [b], ToJson(Absolute(2)))
            || HasCollision(k1.prims.sha256)
    ensures TallyVotesGated(k1, pid, [b], ToJson(Absolute(2))) == TallyVotesGated(k2, pid, [b], ToJson(Absolute(2)))
  {
    var q := ToJson(Absolute(2));
    ParseContractQuorum(Absolute(2));
    SingleBallotCounts(k1, b, Yes);
    SingleBallotCounts(k2, b, No);
    CountersMatchReference(k1, [b]);
    CountersMatchReference(k2, [b]);
    var t1, t2 := TallyVotes(k1, pid, [b], q).value, TallyVotes(k2, pid, [b], q).value;
    if t1 == t2 {
      AttestationBinding(k1.prims.sha256, pid, t1.votesMerkleRoot, 1, 0, pid, t2.votesMerkleRoot, 0, 1);
    }
    GatedHidesDecryption(k1, k2, pid, [b], q);
  }

  lemma SingleBallotCounts(k: Keyring, b: Ballot, c: Choice)
    requires Classify(k, b) == Real(c)
    ensures YesCount(k, [b]) == (if c == Yes then 1 else 0)
    ensures NoCount(k, [b]) == (if c == No then 1 else 0)
  {
    assert [b][..0] == [];
    assert Fold(k, [b]) == Step(Fold(k, []), b, Real(c));
    var m := Fold(k, [b]);
    assert m == map[b.voter := Entry(c, b.timestamp)];
    assert (set v | v in m && m[v].choice == c) == {b.voter};
    assert (set v | v in m && m[v].choice != c) == {};
    if c == Yes {
      assert (set v | v in m && m[v].choice == No) == {};
    } else {
      assert (set v | v in m && m[v].choice == Yes) == {};
    }
  }

  /** With the gate applied to the attestation, a hidden result depends only on the
      proposal and the ballots as submitted: it reveals nothing that decryption
      produced. */
  lemma GatedHidesDecryption(k1: Keyring, k2: Keyring, pid: u64, ballots: seq<Ballot>, quorum: Json)
    requires k1.prims.sha256 == k2.prims.sha256
    requires TallyVotesGated(k1, pid, ballots, quorum).Success?
    requires TallyVotesGated(k2, pid, ballots, quorum).Success?
    requires TallyVotesGated(k1, pid, ballots, quorum).value.yesCount.None?
    requires TallyVotesGated(k2, pid, ballots, quorum).value.yesCount.None?
    ensures TallyVotesGated(k1, pid, ballots, quorum) == TallyVotesGated(k2, pid, ballots, quorum)
  {
  }
}

=== FILE: votes_hash.dfy ===
/** `compute_votes_hash` (src/tally.rs:398-416): a SHA-256 commitment to the ballots
    taken in a canonical order, the stable sort by (voter, timestamp). The doc
    comment at src/tally.rs:391-392 describes a hash of per-vote hashes; the code
    streams the raw preimages into one hasher, and the model follows the code. */
module VotesHash {
  import opened Bytes
  import Hex
  import opened Ballots
  import opened Merkle

  // ---------------------------------------------------------------------------
  // The sort key
  // ---------------------------------------------------------------------------

  /** Rust's `Ord` on `String`: lexicographic on bytes, which for UTF-8 is
      lexicographic on code points. */
  predicate StringLess(s: string, t: string)
  {
    |t| > 0 && (|s| == 0 || s[0] < t[0] || (s[0] == t[0] && StringLess(s[1..], t[1..])))
  }

  lemma {:induction false} StringLessIrreflexive(s: string)
    ensures !StringLess(s, s)
  {
    if |s| > 0 {
      StringLessIrreflexive(s[1..]);
    }
  }

  lemma {:induction false} StringLessAsymmetric(s: string, t: string)
    requires StringLess(s, t)
    ensures !StringLess(t, s)
  {
    if |s| > 0 && s[0] == t[0] {
      StringLessAsymmetric(s[1..], t[1..]);
    }
  }

  lemma {:induction false} StringLessTransitive(s: string, t: string, u: string)
    requires StringLess(s, t) && StringLess(t, u)
    ensures StringLess(s, u)
  {
    if |s| > 0 && s[0] == t[0] && t[0] == u[0] {
      StringLessTransitive(s[1..], t[1..], u[1..]);
    }
  }

  lemma {:induction false} StringLessTotal(s: string, t: string)
    requires s != t
    ensures StringLess(s, t) || StringLess(t, s)
  {
    if |s| > 0 && |t| > 0 && s[0] == t[0] {
      assert s == [s[0]] + s[1..];
      assert t == [t[0]] + t[1..];
      StringLessTotal(s[1..], t[1..]);
    }
  }

  /** The tuple `(&user, timestamp)` that `sort_by_key` compares. */
  predicate KeyLess(a: Ballot, b: Ballot)
  {
    StringLess(a.voter, b.voter) || (a.voter == b.voter && a.timestamp < b.timestamp)
  }

  predicate SameKey(a: Ballot, b: Ballot)
  {
    a.voter == b.voter && a.timestamp == b.timestamp
  }

  /** Ballots with different keys are ordered one way, and never both ways. */
  lemma KeyOrder(a: Ballot, b: Ballot)
    ensures KeyLess(a, b) ==> !KeyLess(b, a)
    ensures !SameKey(a, b) ==> KeyLess(a, b) || KeyLess(b, a)
    ensures SameKey(a, b) ==> !KeyLess(a, b)
  {
    if StringLess(a.voter, b.voter) {
      StringLessAsymmetric(a.voter, b.voter);
    }
    if StringLess(b.voter, a.voter) {
      StringLessAsymmetric(b.voter, a.voter);
    }
    if a.voter != b.voter {
      StringLessTotal(a.voter, b.voter);
    } else {
      StringLessIrreflexive(a.voter);
    }
  }

  lemma KeyLessTransitive(a: Ballot, b: Ballot, c: Ballot)
    requires KeyLess(a, b) && KeyLess(b, c)
    ensures KeyLess(a, c)
  {
    if StringLess(a.voter, b.voter) && StringLess(b.voter, c.voter) {
      StringLessTransitive(a.voter, b.voter, c.voter);
    }
  }

  // ---------------------------------------------------------------------------
  // Stable sort
  // ---------------------------------------------------------------------------

  /** No ballot is followed by one with a smaller key. */
  predicate Sorted(s: seq<Ballot>)
  {
    forall i, j :: 0 <= i < j < |s| ==> !KeyLess(s[j], s[i])
  }

  /** Insert `x` after every element whose key is not larger: a later ballot goes
      after earlier ones with the same key, which keeps the sort stable. */
  function Insert(s: seq<Ballot>, x: Ballot): (r: seq<Ballot>)
    requires Sorted(s)
    ensures multiset(r) == multiset(s) + multiset{x}
    ensures Sorted(r)
  {
    if |s| == 0 then [x]
    else if KeyLess(x, s[0]) then
      InsertFront(s, x);
      [x] + s
    else
      var rest := Insert(s[1..], x);
      assert s == [s[0]] + s[1..];
      forall j | 0 <= j < |rest|
        ensures !KeyLess(rest[j], s[0])
      {
        assert rest[j] in multiset(s[1..]) + multiset{x};
        if rest[j] != x {
          assert rest[j] in s[1..];
        }
      }
      [s[0]] + rest
  }

  lemma InsertFront(s: seq<Ballot>, x: Ballot)
    requires Sorted(s) && |s| > 0 && KeyLess(x, s[0])
    ensures Sorted([x] + s)
  {
    forall j | 0 <= j < |s|
      ensures !KeyLess(s[j], x)
    {
      KeyOrder(x, s[0]);
      if KeyLess(s[j], x) {
        KeyLessTransitive(s[j], x, s[0]);
      }
    }
  }

  /** `sort_by_key(|v| (&v.user, v.timestamp))`: a sorted permutation of the input,
      stable: the ballots that share any one key appear in their input order. */
  function SortByKey(s: seq<Ballot>): (r: seq<Ballot>)
    ensures multiset(r) == multiset(s)
    ensures Sorted(r)
    ensures forall k :: WithKey(r, k) == WithKey(s, k)
  {
    if |s| == 0 then []
    else
      var pre, x := s[..|s| - 1], s[|s| - 1];
      assert s == pre + [x];
      var sorted := SortByKey(pre);
      forall k
        ensures WithKey(Insert(sorted, x), k) == WithKey(s, k)
      {
        InsertWithKey(sorted, x, k);
        WithKeyAppend(pre, x, k);
      }
      Insert(sorted, x)
  }

  /** The ballots of `s` that share `k`'s key, in order. */
  function WithKey(s: seq<Ballot>, k: Ballot): seq<Ballot>
  {
    if |s| == 0 then [] else (if SameKey(s[0], k) then [s[0]] else []) + WithKey(s[1..], k)
  }

  lemma {:induction false} WithKeyAppend(s: seq<Ballot>, x: Ballot, k: Ballot)
    ensures WithKey(s + [x], k) == WithKey(s, k) + (if SameKey(x, k) then [x] else [])
  {
    if |s| == 0 {
      assert [x][1..] == [];
    } else {
      assert (s + [x])[1..] == s[1..] + [x];
      WithKeyAppend(s[1..], x, k);
    }
  }

  lemma {:induction false} WithKeyNone(s: seq<Ballot>, k: Ballot)
    requires forall j :: 0 <= j < |s| ==> !SameKey(s[j], k)
    ensures WithKey(s, k) == []
  {
    if |s| > 0 {
      WithKeyNone(s[1..], k);
    }
  }

  lemma WithKeyCons(a: Ballot, s: seq<Ballot>, k: Ballot)
    ensures WithKey([a] + s, k) == (if SameKey(a, k) then [a] else []) + WithKey(s, k)
  {
    assert ([a] + s)[1..] == s;
  }

  /** Inserting `x` adds it behind every ballot of its own key. */
  lemma {:induction false} InsertWithKey(s: seq<Ballot>, x: Ballot, k: Ballot)
    requires Sorted(s)
    ensures WithKey(Insert(s, x), k) == WithKey(s, k) + (if SameKey(x, k) then [x] else [])
  {
    if |s| == 0 {
      WithKeyCons(x, [], k);
    } else if KeyLess(x, s[0]) {
      InsertBeforeAll(s, x, k);
    } else {
      InsertWithKey(s[1..], x, k);
      InsertAfterHead(s, x, k);
    }
  }

  lemma InsertBeforeAll(s: seq<Ballot>, x: Ballot, k: Ballot)
    requires Sorted(s) && |s| > 0 && KeyLess(x, s[0])
    ensures WithKey([x] + s, k) == WithKey(s, k) + (if SameKey(x, k) then [x] else [])
  {
    WithKeyCons(x, s, k);
    if SameKey(x, k) {
      forall j | 0 <= j < |s|
        ensures !SameKey(s[j], k)
      {
        KeyOrder(s[j], s[0]);
      }
      WithKeyNone(s, k);
    }
  }

  lemma InsertUnfold(s: seq<Ballot>, x: Ballot)
    requires Sorted(s) && |s| > 0 && !KeyLess(x, s[0])
    ensures Insert(s, x) == [s[0]] + Insert(s[1..], x)
  {
  }

  lemma InsertAfterHead(s: seq<Ballot>, x: Ballot, k: Ballot)
    requires Sorted(s) && |s| > 0 && !KeyLess(x, s[0]) && Sorted(s[1..])
    requires WithKey(Insert(s[1..], x), k) == WithKey(s[1..], k) + (if SameKey(x, k) then [x] else [])
    ensures WithKey(Insert(s, x), k) == WithKey(s, k) + (if SameKey(x, k) then [x] else [])
  {
    var rest := Insert(s[1..], x);
    var head := if SameKey(s[0], k) then [s[0]] else [];
    var tail := if SameKey(x, k) then [x] else [];
    InsertUnfold(s, x);
    WithKeyCons(s[0], rest, k);
    assert WithKey(Insert(s, x), k) == head + (WithKey(s[1..], k) + tail);
    assert s == [s[0]] + s[1..];
    WithKeyCons(s[0], s[1..], k);
    assert WithKey(s, k) == head + WithKey(s[1..], k);
    AppendAssoc(head, WithKey(s[1..], k), tail);
  }

  lemma AppendAssoc(a: seq<Ballot>, b: seq<Ballot>, c: seq<Ballot>)
    ensures (a + b) + c == a + (b + c)
  {
  }

  // ---------------------------------------------------------------------------
  // The hash
  // ---------------------------------------------------------------------------

  /** The bytes fed to the hasher: each ballot's preimage, in order. */
  function Concat(s: seq<Ballot>): seq<uint8>
  {
    if |s| == 0 then [] else Preimage(s[0]) + Concat(s[1..])
  }

  /** `compute_votes_hash`: the hex digest of the sorted ballots' preimages. */
  function ComputeVotesHash(h: Hasher, ballots: seq<Ballot>): (r: string)
    ensures IsNode(r)
    ensures Hex.Decode(r).Some? && Hex.Decode(r).value == h(Concat(SortByKey(ballots)))
  {
    var d := h(Concat(SortByKey(ballots)));
    Hex.DecodeEncode(d);
    Hex.Encode(d)
  }

  /** Ballots that share a key are the same ballot. */
  ghost predicate DistinctKeys(m: multiset<Ballot>)
  {
    forall x, y :: x in m && y in m && SameKey(x, y) ==> x == y
  }

  /** The first elements of two sorted arrangements of the same ballots agree. */
  lemma HeadsAgree(s: seq<Ballot>, t: seq<Ballot>)
    requires Sorted(s) && Sorted(t) && |s| > 0
    requires multiset(s) == multiset(t)
    requires DistinctKeys(multiset(s))
    ensures |t| > 0 && s[0] == t[0]
  {
    assert s[0] in multiset(t);
    var j :| 0 <= j < |t| && t[j] == s[0];
    assert t[0] in multiset(s);
    var i :| 0 <= i < |s| && s[i] == t[0];
    if i > 0 && j > 0 {
      assert !KeyLess(s[i], s[0]);
      assert !KeyLess(t[j], t[0]);
      KeyOrder(s[0], s[i]);
      assert SameKey(s[0], s[i]);
    }
  }

  /** Two sorted arrangements of the same ballots coincide when equal keys mean
      equal ballots. */
  lemma {:induction false} SortedUnique(s: seq<Ballot>, t: seq<Ballot>)
    requires Sorted(s) && Sorted(t)
    requires multiset(s) == multiset(t)
    requires DistinctKeys(multiset(s))
    ensures s == t
    decreases |s|
  {
    if |s| > 0 {
      HeadsAgree(s, t);
      assert s == [s[0]] + s[1..];
      assert t == [t[0]] + t[1..];
      assert multiset(s) == multiset{s[0]} + multiset(s[1..]);
      assert multiset(t) == multiset{t[0]} + multiset(t[1..]);
      assert multiset(s[1..]) == multiset(s) - multiset{s[0]};
      assert multiset(t[1..]) == multiset(t) - multiset{t[0]};
      assert multiset(s[1..]) <= multiset(s);
      SortedUnique(s[1..], t[1..]);
    } else {
      assert |t| == |multiset(t)| == 0;
    }
  }

  /** The commitment does not depend on the order ballots are supplied in, as long
      as no two different ballots share a (voter, timestamp) key. */
  lemma VotesHashPermutationInvariant(h: Hasher, a: seq<Ballot>, b: seq<Ballot>)
    requires multiset(a) == multiset(b)
    requires DistinctKeys(multiset(a))
    ensures ComputeVotesHash(h, a) == ComputeVotesHash(h, b)
  {
    SortedUnique(SortByKey(a), SortByKey(b));
  }

  /** Two ballots with one key stay in submission order. */
  lemma SortKeepsTiedPair(a: Ballot, b: Ballot)
    requires SameKey(a, b)
    ensures SortByKey([a, b]) == [a, b]
  {
    KeyOrder(b, a);
    assert [a, b][..1] == [a];
    assert SortByKey([a]) == [a] by { assert [a][..0] == []; }
  }

  lemma ConcatPair(a: Ballot, b: Ballot)
    ensures Concat([a, b]) == Preimage(a) + Preimage(b)
  {
    assert [a, b][1..] == [b];
    assert Concat([b]) == Preimage(b) + Concat([]);
    assert Preimage(b) + [] == Preimage(b);
  }

  /** Without distinct keys the order matters: the sort is stable, so two
      different ballots of one voter at one timestamp (ciphertexts of equal
      length, as hex ciphertexts of one vote format are) hash differently in the
      two submission orders, unless SHA-256 has a collision. */
  lemma DuplicateKeysDependOnOrder(h: Hasher, a: Ballot, b: Ballot)
    requires SameKey(a, b) && a != b
    requires |Utf8(a.ciphertext)| == |Utf8(b.ciphertext)|
    ensures ComputeVotesHash(h, [a, b]) != ComputeVotesHash(h, [b, a]) || HasCollision(h)
  {
    SortKeepsTiedPair(a, b);
    SortKeepsTiedPair(b, a);
    ConcatPair(a, b);
    ConcatPair(b, a);
    var ab, ba := Preimage(a) + Preimage(b), Preimage(b) + Preimage(a);
    if ab == ba {
      assert Preimage(a) == ab[..|Preimage(a)|] == ba[..|Preimage(b)|] == Preimage(b);
      PreimageDeterminesCiphertext(a, b);
    } else if ComputeVotesHash(h, [a, b]) == ComputeVotesHash(h, [b, a]) {
      Hex.EncodeInjective(h(ab), h(ba));
      assert ab != ba && h(ab) == h(ba);
    }
  }

  /** The order-independence test of src/tally.rs:490-507. */
  lemma TwoVotersInEitherOrder(h: Hasher)
    ensures ComputeVotesHash(h, [Ballot("alice", "abc", 1000), Ballot("bob", "def", 2000)])
         == ComputeVotesHash(h, [Ballot("bob", "def", 2000), Ballot("alice", "abc", 1000)])
  {
    var alice, bob := Ballot("alice", "abc", 1000), Ballot("bob", "def", 2000);
    assert multiset([alice, bob]) == multiset([bob, alice]);
    forall x, y | x in multiset([alice, bob]) && y in multiset([alice, bob]) && SameKey(x, y)
      ensures x == y
    {
      assert x == alice || x == bob;
      assert y == alice || y == bob;
      assert alice.voter[0] != bob.voter[0];
    }
    VotesHashPermutationInvariant(h, [alice, bob], [bob, alice]);
  }
}

=== FILE: wrappers.dfy ===
/** Failure-carrying wrappers used throughout the model. */
module Wrappers {

  /** An optional value: the source's `Option<T>`. */
  datatype Option<+T> = None | Some(value: T)

  /** A value or an error: the source's `Result<T, E>`, and also the model of a
      NEAR contract call that panics (the call fails and no state change persists). */
  datatype Result<+T, +E> = Success(value: T) | Failure(error: E)
}
